=== FILE: README.md ===
# Window geometry and targeting of macos-workspace-mcp-server, in Dafny

This project models the window engine of an MCP server that lists, places and
focuses macOS windows:

- the placement presets and the frame each one computes inside a display's
  visible frame (`PositionCalculator`, `WindowPreset`);
- the display list, flipped from display space (origin bottom-left, Y up)
  into window space (origin top-left, Y down) (`DefaultDisplayService`);
- the window service (`DefaultWindowService`):
  - listing joins window-server entries with accessibility flags;
  - a request resolves to a target window, and that window to a display;
  - frames are written with the size, position, size protocol;
  - `positionWindow` and `focusWindow` run in order and re-read the window
    afterwards;
- the three window tools' argument validation and result reporting
  (`position_window`, `focus_window`, `list_windows`);
- the user-facing text of each `WorkspaceError`.

The operating system is a value. A `Platform.Desktop` holds:

- the accessibility permission flag;
- the running applications, with their accessibility windows;
- `NSScreen.screens` and the index of `NSScreen.main`;
- the window-server listing.

What each accessibility write answers is a parameter, and so is the window
state re-read after the writes. Each engine operation returns the calls it
issued (`WindowService.AXCall`) together with its outcome. An outcome is a
value, a thrown `WorkspaceError`, or `Trapped` for a runtime trap. The two
traps are the force-unwrap of `NSScreen.screens.first!` and `fatalError`.

The tools take the window service as a function argument, as they receive
it through the service protocol. "The service is not called" is stated as:
the result is the same for every service.

Integer display rectangles are `Geometry.Rect`, and window-side geometry is
`real`. The calculator's `floor(w / 2)`, `floor(w / 3)` and `floor(w * 0.6)`
are Dafny's `w / 2`, `w / 3` and `(3 * w) / 5`. For a positive divisor, these
are floor division on every integer, negative ones included.

The source's accept-list for frame writes contains `.success`,
`.actionUnsupported` and the raw value -25200. Its comment calls -25200
"not implemented" and gives `.actionUnsupported` as -25205. On the platform,
-25200 is the generic failure code and `.actionUnsupported` is -25206. The
model keeps the code as written: `Platform.ActionUnsupported` is -25206, and
-25200 is accepted by raw value.

## Model

| member | source | states |
|---|---|---|
| Sequences.ContainsInfixIsInfix | Sources/MacOSWorkspaceMCPServer/Services/WindowService.swift:352-356 | the scanning substring test used for title filtering holds exactly when the filter occurs at some offset of the title |
| Sequences.NatToDecimalRoundTrip | Sources/MacOSWorkspaceMCPServer/Services/WindowService.swift:503-504 | the decimal text of an error's raw value reads back as that value |
| Sequences.IntToDecimal | Sources/MacOSWorkspaceMCPServer/Services/WindowService.swift:503-504 | a raw value's text starts with '-' exactly when the value is negative; a non-negative value's text is all digits and reads back as the value; a negative value's text is '-' followed by the text of its magnitude |
| WindowPresets.Parse | Sources/MacOSWorkspaceMCPServer/Models/Window/WindowPreset.swift:6-46 | `WindowPreset(rawValue:)` yields a preset only for a string equal to its raw value, and nil exactly when no preset has that raw value |
| WindowPresets.AllCasesEnumeratesEachOnce | Sources/MacOSWorkspaceMCPServer/Models/Window/WindowPreset.swift:6-46 | `allCases` has 15 entries, lists every preset and lists none twice |
| WindowPresets.RawValueInjective | Sources/MacOSWorkspaceMCPServer/Models/Window/WindowPreset.swift:6-46 | distinct presets have distinct raw values |
| WindowPresets.ParseRawValue | Sources/MacOSWorkspaceMCPServer/Models/Window/WindowPreset.swift:6-46 | parsing a preset's raw value gives back the preset |
| WindowPresets.ParseRejectsInvalid | Sources/MacOSWorkspaceMCPServer/Models/Window/WindowPreset.swift:6-46 | "invalid", "" and the capitalised "Left" name no preset |
| PositionCalculator.SixtyPercent | Sources/MacOSWorkspaceMCPServer/Domain/PositionCalculator.swift:84-85 | the centred size is the largest integer not above 0.6 of the dimension |
| PositionCalculator.CalculateFrame | Sources/MacOSWorkspaceMCPServer/Domain/PositionCalculator.swift:13-92 | every preset's frame lies inside a visible frame of non-negative size, and has positive size once the frame is at least 3 wide and 2 high |
| PositionCalculator.HalvesSplitWidth | Sources/MacOSWorkspaceMCPServer/Domain/PositionCalculator.swift:32-36 | left is floor(width / 2) wide, right starts where left ends, and the two widths add up to the full width |
| PositionCalculator.HalvesSplitHeight | Sources/MacOSWorkspaceMCPServer/Domain/PositionCalculator.swift:38-42 | top is floor(height / 2) high, bottom starts where top ends and takes the remainder |
| PositionCalculator.QuartersComposeHalves | Sources/MacOSWorkspaceMCPServer/Domain/PositionCalculator.swift:45-58 | each quarter has the columns of its vertical half and the rows of its horizontal half |
| PositionCalculator.QuartersTile | Sources/MacOSWorkspaceMCPServer/Domain/PositionCalculator.swift:45-58 | every cell of the visible frame is in exactly one quarter, and no cell outside it is in any |
| PositionCalculator.ThirdsTile | Sources/MacOSWorkspaceMCPServer/Domain/PositionCalculator.swift:61-69 | the three thirds are adjacent, their widths add up to the full width, and every cell is in exactly one of them |
| PositionCalculator.TwoThirdsCoverThirds | Sources/MacOSWorkspaceMCPServer/Domain/PositionCalculator.swift:71-75 | left two-thirds covers exactly the left and centre thirds; right two-thirds covers exactly the centre and right thirds and ends at the far edge |
| PositionCalculator.FullscreenIsIdentity | Sources/MacOSWorkspaceMCPServer/Domain/PositionCalculator.swift:78-79 | fullscreen is the visible frame itself |
| PositionCalculator.CenterIsCentred | Sources/MacOSWorkspaceMCPServer/Domain/PositionCalculator.swift:82-90 | centre is floor(0.6 * dim) on each axis, with margins on either side that differ by at most one, the smaller first |
| PositionCalculator.DocumentedFrames | Tests/MacOSWorkspaceMCPServerTests/Domain/PositionCalculatorTests.swift:9-191 | the frames the calculator's tests expect on 1920 x 1055 and on a frame at x = -1920 |
| PositionCalculator.DocumentedCenterFrame | Tests/MacOSWorkspaceMCPServerTests/Domain/PositionCalculatorCenterTests.swift:9-27 | the centre frame its test expects on a 1920 x 1025 frame below a 25-point menu bar: (384, 230, 1152, 615) |
| WorkspaceErrors.UserMessage | Sources/MacOSWorkspaceMCPServer/Models/Common/WorkspaceError.swift:38-84 | every error has a message of more than ten characters |
| WorkspaceErrors.ApplicationMessagesMention | Sources/MacOSWorkspaceMCPServer/Models/Common/WorkspaceError.swift:40-47 | the application errors' messages contain the bundle ID, the launch failure's reason, and "not found" for a missing application |
| WorkspaceErrors.WindowMessagesMention | Sources/MacOSWorkspaceMCPServer/Models/Common/WorkspaceError.swift:61-73 | the window errors' messages contain the bundle ID, the title when one was given, and "not found" or "minimized" respectively |
| WorkspaceErrors.DetailMessagesMention | Sources/MacOSWorkspaceMCPServer/Models/Common/WorkspaceError.swift:58-82 | the failure messages quote their reason, the parameter error its name and reason, the display error the display name |
| WorkspaceErrors.PermissionMessageMentions | Sources/MacOSWorkspaceMCPServer/Models/Common/WorkspaceError.swift:49-56 | the permission message names the accessibility permission |
| DisplayService.ConvertToDisplayInfo | Sources/MacOSWorkspaceMCPServer/Services/DisplayService.swift:24-55 | flipping the reported frame and visible frame back against the main screen's height gives the screen's own frames; the entry is main exactly when it is the main screen |
| DisplayService.ListDisplays | Sources/MacOSWorkspaceMCPServer/Services/DisplayService.swift:16-55 | one entry per screen in screen order, with x and sizes copied and y flipped; it traps exactly when there is a screen but no main screen; the main screen's entry is the only one marked main |
| DisplayService.VisibleFrameStaysInside | Sources/MacOSWorkspaceMCPServer/Services/DisplayService.swift:36-52 | a visible frame inside its screen frame is still inside it in the reported coordinates |
| DisplayService.MainScreenAtOrigin | Sources/MacOSWorkspaceMCPServer/Services/DisplayService.swift:34-53 | a main screen at display origin (0, 0) is reported at (0, 0) and marked main |
| WindowService.AppWithPid | Sources/MacOSWorkspaceMCPServer/Services/WindowService.swift:98 | the application found by process id is the first with that id; none is found only when no application has it |
| WindowService.RunningAppFor | Sources/MacOSWorkspaceMCPServer/Services/WindowService.swift:330-333 | the application found by bundle ID is the first running application with that ID; none is found only when no application has it |
| WindowService.DetermineDisplay | Sources/MacOSWorkspaceMCPServer/Services/WindowService.swift:250-267 | the name of the first screen whose frame contains the window's centre, and "Unknown" exactly when none does |
| WindowService.SingleScreenSpacesAgree | Sources/MacOSWorkspaceMCPServer/Services/WindowService.swift:259-262 | on a desktop with one screen at the origin, display-space and window-space frames contain the same points |
| WindowService.MatchesWindow | Sources/MacOSWorkspaceMCPServer/Services/WindowService.swift:193-225 | an accessibility window matches a listing entry exactly when it has the entry's non-empty title, or its position and size (zero when unreadable) each lie in the open interval of width 2 around the entry's bounds |
| WindowService.TitleMatchIgnoresGeometry | Sources/MacOSWorkspaceMCPServer/Services/WindowService.swift:193-198 | a non-empty title equal on both sides matches whatever the geometry |
| WindowService.UntitledEntryMatchesByGeometry | Sources/MacOSWorkspaceMCPServer/Services/WindowService.swift:200-224 | an untitled entry matches exactly when position and size are each strictly within 1.0, so a difference of exactly 1.0 does not match |
| WindowService.JoinFlags | Sources/MacOSWorkspaceMCPServer/Services/WindowService.swift:133-153 | without permission or a readable accessibility window list, both flags are false |
| WindowService.JoinFlagsFirstMatch | Sources/MacOSWorkspaceMCPServer/Services/WindowService.swift:137-150 | with permission, the first accessibility window that matches the listing entry supplies the minimized and fullscreen flags |
| WindowService.JoinFlagsNoMatch | Sources/MacOSWorkspaceMCPServer/Services/WindowService.swift:137-153 | with permission but no matching accessibility window, both flags are false |
| WindowService.ListedWindow | Sources/MacOSWorkspaceMCPServer/Services/WindowService.swift:85-166 | an entry is listed exactly when it is on layer 0, its process resolves to an application with a bundle ID and a name, it passes the bundle filter and its bounds are readable; the listed window copies the bounds and the title ("" when absent), names the owning application's bundle ID and name, carries the flags the accessibility join gives for that application, and is attributed to the display `DetermineDisplay` picks for the bounds' centre in the frame space given |
| WindowService.CollectWindows | Sources/MacOSWorkspaceMCPServer/Services/WindowService.swift:83-171 | the output is no longer than the listing, every window passes the bundle filter and comes from some listed entry, and without permission no window is minimized or fullscreen |
| WindowService.CollectWindowsAppend | Sources/MacOSWorkspaceMCPServer/Services/WindowService.swift:85-169 | listing a concatenation lists each part in turn, so the output keeps the window server's order |
| WindowService.CollectSingleEntry | Sources/MacOSWorkspaceMCPServer/Services/WindowService.swift:85-168 | one entry contributes its window when it passes every filter and nothing otherwise |
| WindowService.ListWindows | Sources/MacOSWorkspaceMCPServer/Services/WindowService.swift:66-81 | an unreadable listing gives no windows; a readable one gives the listing loop's result over its entries; every window returned passes the bundle filter |
| WindowService.SelectsWindowIsFilter | Sources/MacOSWorkspaceMCPServer/Services/WindowService.swift:346-361 | a window is selected exactly when there is no title filter or its title contains the filter |
| WindowService.BuildWindowInfo | Sources/MacOSWorkspaceMCPServer/Services/WindowService.swift:380-430 | the snapshot carries the window's title ("" when unreadable), its position and size (zero when unreadable), its flags (false when unreadable), the bundle ID and the application name given, and the display `DetermineDisplay` picks for its centre in the frame space given |
| WindowService.FindTargetWindow | Sources/MacOSWorkspaceMCPServer/Services/WindowService.swift:325-377 | a window is found exactly when an application has the bundle ID, its window list is readable and some window passes the title filter; the one found is the first such window of the first such application (the first window outright without a filter); otherwise `windowNotFound` with the bundle ID and title |
| WindowService.DetermineTargetScreen | Sources/MacOSWorkspaceMCPServer/Services/WindowService.swift:433-461 | a named display is the first screen with exactly that name, and `displayNotFound` exactly when there is none; without a name, the first screen holding the window's centre, else the main screen, else the first screen; it traps exactly when there is no screen |
| WindowService.UpdatedWindowInfo | Sources/MacOSWorkspaceMCPServer/Services/WindowService.swift:529-541 | the re-read snapshot carries the re-read title and flags and the bundle ID; its owner name is that of the first application with the target's process id, "Unknown" when there is none or it has no name; the snapshot is the one `buildWindowInfo` makes of the re-read window for that name, so its geometry and display come from the re-read position and size |
| WindowService.ExplicitDisplayNameWins | Sources/MacOSWorkspaceMCPServer/Services/WindowService.swift:437-444 | a requested display name is honoured even when the window's centre is on another screen |
| WindowService.ConvertToScreenCoordinates | Sources/MacOSWorkspaceMCPServer/Services/WindowService.swift:465-479 | with no screens the rectangle is unchanged; otherwise only y changes, mirrored against the first screen's height |
| WindowService.ConvertToScreenCoordinatesInvolution | Sources/MacOSWorkspaceMCPServer/Services/WindowService.swift:465-479 | converting twice gives back the original rectangle |
| WindowService.FailureReason | Sources/MacOSWorkspaceMCPServer/Services/WindowService.swift:503-504 | a rejected write's reason quotes the raw error value |
| WindowService.SetWindowFrame | Sources/MacOSWorkspaceMCPServer/Services/WindowService.swift:482-526 | the writes are a prefix of size, position, size; each write is issued only after the earlier ones were accepted; the final size write is issued only if the first answered exactly success; an error is thrown exactly when the last write issued was rejected, as `positioningFailed` quoting its raw value |
| WindowService.RaiseWindow | Sources/MacOSWorkspaceMCPServer/Services/WindowService.swift:544-562 | activate then raise when the application is running; `applicationNotFound` with no calls exactly when it is not |
| WindowService.RaiseIgnoresResult | Sources/MacOSWorkspaceMCPServer/Services/WindowService.swift:557-561 | the raise action's own result never changes the outcome |
| WindowService.PositionWindow | Sources/MacOSWorkspaceMCPServer/Services/WindowService.swift:272-320 | no permission, no target or a minimized target each fail with no calls issued; a missing display fails with no calls; raise never fails; with permission and a non-minimized target, the run traps exactly when there is no screen and no display name; success reports the requested preset, a screen's name (the requested one if given) and exactly the re-read snapshot of `getUpdatedWindowInfo`, after at least four calls ending with the raise |
| WindowService.PlacementWritesPresetFrame | Sources/MacOSWorkspaceMCPServer/Services/WindowService.swift:287-319 | with permission and a non-minimized target: `displayNotFound` exactly when a display name is given that no screen has; no call when no screen is chosen; otherwise the preset's frame in the chosen screen's visible frame is written with the frame protocol, a rejected write ends the run with its error and only those writes, and an accepted one is followed by activate and raise and reports the chosen screen's name and the re-read snapshot; with no screen chosen and none named, the run traps with no call |
| WindowService.StackedPlacementAsWritten | Sources/MacOSWorkspaceMCPServer/Services/WindowService.swift:287-319 | with screen frames in display space, a window over the upper of two stacked screens is placed, with no display named, in the main screen's visible frame and reported on the main screen |
| WindowService.StackedPlacementCorrected | Sources/MacOSWorkspaceMCPServer/Services/WindowService.swift:287-319 | with screen frames in window space, the same window is placed in the upper screen's visible frame and reported on it |
| WindowService.PlacementStaysInVisibleFrame | Sources/MacOSWorkspaceMCPServer/Services/WindowService.swift:297-303 | after a successful placement, the size and position written describe a rectangle inside the chosen screen's visible frame in window space |
| WindowService.FocusWindowWriting | Sources/MacOSWorkspaceMCPServer/Services/WindowService.swift:567-607 | no permission or no target fail with no calls; the unminimize write is issued exactly for a minimized target; focus fails exactly when that write is answered by something other than success or action-unsupported; a failure's reason quotes the raw error value; success issues exactly the unminimize write (for a minimized target), then activate and raise, and reports the re-read snapshot of `getUpdatedWindowInfo` |
| WindowService.UnminimizeFailureReason | Sources/MacOSWorkspaceMCPServer/Services/WindowService.swift:590-593 | the unminimize failure reason quotes the raw error value |
| WindowService.FocusWritesOnlyValue | Sources/MacOSWorkspaceMCPServer/Services/WindowService.swift:580-593 | the only value `focusWindow` ever writes to the minimized attribute is the one it clears the flag with |
| WindowService.FocusWindow | Sources/MacOSWorkspaceMCPServer/Services/WindowService.swift:580-593 | the unminimize write of a minimized target writes boolean false, and no other value is ever written to the minimized attribute |
| WindowService.AcceptListsDiffer | Sources/MacOSWorkspaceMCPServer/Services/WindowService.swift:491-493 | -25200 passes the frame-write accept-list but not the unminimize accept-list, which is otherwise a subset of it |
| ToolResults.MissingParameterText | Sources/MacOSWorkspaceMCPServer/Tools/PositionWindowTool.swift:84-98 | the missing-parameter text names the parameter |
| ToolResults.NonEmpty | Sources/MacOSWorkspaceMCPServer/Tools/PositionWindowTool.swift:111-113 | an optional argument survives exactly when it is present and non-empty, and is then unchanged |
| ToolResults.NonEmptyNormalises | Sources/MacOSWorkspaceMCPServer/Tools/PositionWindowTool.swift:111-113 | normalising is idempotent, and "" normalises like absence |
| ToolResults.Report | Sources/MacOSWorkspaceMCPServer/Tools/PositionWindowTool.swift:115-134 | a reply value becomes the payload; a workspace error becomes its user message; any other error becomes the prefix followed by its description |
| PositionWindowTool.InvalidPresetText | Sources/MacOSWorkspaceMCPServer/Tools/PositionWindowTool.swift:100-109 | the unknown-preset text quotes the string given and every valid preset's raw value |
| PositionWindowTool.Validate | Sources/MacOSWorkspaceMCPServer/Tools/PositionWindowTool.swift:75-113 | checks run in order (decode, bundleId, preset present, preset known), each with its own text; a valid request carries the bundle ID, the preset whose raw value was given, and the title and display name with "" read as absent |
| PositionWindowTool.EveryPresetAccepted | Sources/MacOSWorkspaceMCPServer/Tools/PositionWindowTool.swift:100 | every preset's raw value is accepted with any non-empty bundle ID |
| PositionWindowTool.Execute | Sources/MacOSWorkspaceMCPServer/Tools/PositionWindowTool.swift:75-135 | invalid arguments give their validation text; otherwise the service's reply to the normalised request is reported |
| PositionWindowTool.InvalidInputSkipsService | Sources/MacOSWorkspaceMCPServer/Tools/PositionWindowTool.swift:77-109 | invalid arguments are answered the same whatever the service |
| PositionWindowTool.EmptyOptionalsAreAbsent | Sources/MacOSWorkspaceMCPServer/Tools/PositionWindowTool.swift:111-122 | empty title and display name give the same result as omitted ones |
| FocusWindowTool.Execute | Sources/MacOSWorkspaceMCPServer/Tools/FocusWindowTool.swift:47-87 | decode failure and a missing or empty bundle ID give their texts; otherwise the service's reply for the bundle ID and the title as given is reported |
| FocusWindowTool.EmptyTitlePassedThrough | Sources/MacOSWorkspaceMCPServer/Tools/FocusWindowTool.swift:66-69 | an empty title reaches the service as the empty string |
| FocusWindowTool.MissingBundleIdSkipsService | Sources/MacOSWorkspaceMCPServer/Tools/FocusWindowTool.swift:57-62 | without a usable bundle ID the result is the same whatever the service |
| ListWindowsTool.Filter | Sources/MacOSWorkspaceMCPServer/Tools/ListWindowsTool.swift:46-49 | the filter is a non-empty bundle ID taken from the arguments, and absent exactly when the arguments do not decode, omit it or give "" |
| ListWindowsTool.AsResponse | Sources/MacOSWorkspaceMCPServer/Tools/ListWindowsTool.swift:53-55 | a reply's windows are wrapped in a `WindowListResponse` and failures pass through unchanged |
| ListWindowsTool.Execute | Sources/MacOSWorkspaceMCPServer/Tools/ListWindowsTool.swift:44-68 | a reply's windows are wrapped in the response; a workspace error becomes its user message; any other error becomes "予期しないエラー: " followed by its description |
| ListWindowsTool.EngineListingNeverFails | Sources/MacOSWorkspaceMCPServer/Tools/ListWindowsTool.swift:53-55 | served by the engine in either frame space, the tool always answers with a listing, and a bundle ID keeps only that application's windows |
| ListWindowsTool.FallbacksListEverything | Sources/MacOSWorkspaceMCPServer/Tools/ListWindowsTool.swift:46-49 | undecodable arguments and an empty bundle ID both list like an omitted one |

## Left out

- Floating point. Display rectangles are integers and the calculator's floors are exact integer division. `CGFloat` rounding, and fractional visible frames (possible on scaled displays), are not modelled.
- DisplayService.ConvertToDisplayInfo: the `Int(...)` truncation of fractional frame values is not modelled, because frames are integer here.
- AXValueCreate: its failures (the "Failed to create … value" errors) are not modelled. The platform creates these values for any point or size.
- Attribute reads: the force cast `as! AXValue` when reading position and size is not modelled. A position or size that cannot be read counts as zero, as it does when the read fails.
- Live platform calls are parameters or fields of `Platform.Desktop`: the permission check, the window-server listing, the running applications, the screens, the answers to accessibility writes, and the window state re-read after them. The activation and raise are recorded as calls. Their effect on the screen is not modelled.
- Consistency between lookups: an application cannot quit between lookups, because every lookup in one request reads the same snapshot. As a result `raiseWindow`'s `applicationNotFound` cannot happen inside `positionWindow` or `focusWindow`.
- JSON: `Codable` decoding of tool arguments is reduced to an optional decoded input. `MCPResultEncoder`'s JSON text and its encoding-failure branch are left out; a payload is the value itself.
- Concurrency: `async` and `Sendable` are not modelled.
- Other tools and services: the application service and the launch, quit, list-applications and list-displays tools are not part of this model.
- Sequences.ContainsInfixIsInfix: title filtering uses the mathematical substring relation. Under it the empty filter is contained in every title. Swift's `String.contains` on an empty string, and its grapheme-cluster and Unicode-equivalence comparison, are not modelled; strings are compared character by character.
- WindowService.FocusWindow: the write's effect on the window is not modelled. The re-read state is a parameter, so the model does not claim the window ends up unminimized.

## Findings

| source | as written | input that shows it | evidently intended | confidence | as-written member | corrected member |
|---|---|---|---|---|---|---|
| Sources/MacOSWorkspaceMCPServer/Services/WindowService.swift:250-267 | `determineDisplay` and the centre test of `determineTargetScreen` (lines 452-456) test a window-space centre against `NSScreen.frame`, which is in display space | primary screen 1920 x 1080 at (0, 0); second screen 1920 x 1080 above it at display-space (0, 1080); window at (660, -840), size 600 x 600, centre (960, -540): it is listed on display "Unknown" and placed on the main screen | the screen frames are flipped into window space, as `convertToScreenCoordinates` does, before the test, so the window is attributed to the upper screen | medium, not executed | WindowService.StackedScreensAsWritten | WindowService.StackedScreensCorrected |
| Sources/MacOSWorkspaceMCPServer/Services/WindowService.swift:580-589 | `focusWindow` clears the minimized flag by writing `AXValueCreate(.cgPoint, &minimized)`. That is a point-typed value built over a `Bool`, not a boolean | any minimized target window: the write to the boolean minimized attribute carries a point value | write boolean false (`kCFBooleanFalse`) to the minimized attribute | high, not executed | WindowService.UnminimizeAsWritten | WindowService.FocusWindow |

Every engine operation that attributes a window to a screen takes a
`WindowService.FrameSpace` argument:

- `DisplaySpace` is the code as written. A window-space centre is tested
  against `NSScreen.frame` as supplied.
- `WindowSpace` is the corrected form. The screen frames are flipped first.

The argument is taken by `DetermineDisplay`, `DetermineTargetScreen`,
`ListedWindow`, `CollectWindows`, `ListWindows`, `BuildWindowInfo`,
`FindTargetWindow`, `PositionWindow` and the focus operations, so each is one
definition for both forms. `WindowService.StackedPlacementAsWritten` and
`WindowService.StackedPlacementCorrected` show where the two placements part.
In both forms the frame written is computed in a visible frame converted with
`convertToScreenCoordinates`, as the source does.

`WindowService.FocusWindow` writes boolean false. `WindowService.FocusWindowWriting`
takes the value written, so the as-written point value uses the same definition.

=== FILE: display_service.dfy ===
/** `DefaultDisplayService`: the screen list reported in window space. */
module DisplayService {
  import opened Wrappers
  import opened Geometry
  import opened Platform
  import opened WindowModels

  /** `convertToDisplayInfo` for `screens[i]`, with `screens[main]` as
      `NSScreen.main`: both frames are flipped against the main screen's
      height, and the entry is marked main when it is that screen. */
  function ConvertToDisplayInfo(screens: seq<Screen>, main: nat, i: nat): (d: DisplayInfo)
    requires main < |screens| && i < |screens|
    ensures d.name == screens[i].localizedName
    ensures d.isMain <==> i == main
    ensures FlipY(Rect(d.x, d.y, d.width, d.height), screens[main].frame.height) == screens[i].frame
    ensures FlipY(Rect(d.visibleX, d.visibleY, d.visibleWidth, d.visibleHeight), screens[main].frame.height)
         == screens[i].visibleFrame
  {
    var mainScreenHeight := screens[main].frame.height;
    var frame := FlipY(screens[i].frame, mainScreenHeight);
    var visible := FlipY(screens[i].visibleFrame, mainScreenHeight);
    FlipYInvolution(screens[i].frame, mainScreenHeight);
    FlipYInvolution(screens[i].visibleFrame, mainScreenHeight);
    DisplayInfo(
      screens[i].localizedName,
      frame.width, frame.height, frame.x, frame.y,
      visible.x, visible.y, visible.width, visible.height,
      i == main)
  }

  /** `listDisplays`: one entry per screen, in screen order. It traps
      (`fatalError`) when there is a screen to convert but no main screen. */
  function ListDisplays(screens: seq<Screen>, mainScreen: Option<nat>): (r: Option<seq<DisplayInfo>>)
    requires ValidMainScreen(screens, mainScreen)
    ensures r.None? <==> |screens| > 0 && mainScreen.None?
    ensures r.Some? ==> |r.value| == |screens|
    ensures r.Some? ==> forall i | 0 <= i < |screens| ::
      && r.value[i].name == screens[i].localizedName
      && r.value[i].x == screens[i].frame.x
      && r.value[i].width == screens[i].frame.width
      && r.value[i].height == screens[i].frame.height
      && r.value[i].visibleX == screens[i].visibleFrame.x
      && r.value[i].visibleWidth == screens[i].visibleFrame.width
      && r.value[i].visibleHeight == screens[i].visibleFrame.height
    ensures r.Some? && |screens| > 0 ==> forall i | 0 <= i < |screens| ::
      && r.value[i].y == screens[mainScreen.value].frame.height - screens[i].frame.y - screens[i].frame.height
      && r.value[i].visibleY
         == screens[mainScreen.value].frame.height - screens[i].visibleFrame.y - screens[i].visibleFrame.height
    ensures r.Some? && |screens| > 0 ==> r.value[mainScreen.value].isMain
    ensures r.Some? ==> forall i, j | 0 <= i < j < |screens| :: !(r.value[i].isMain && r.value[j].isMain)
  {
    if |screens| == 0 then Some([])
    else if mainScreen.None? then None
    else Some(seq(|screens|, i requires 0 <= i < |screens| => ConvertToDisplayInfo(screens, mainScreen.value, i)))
  }

  /** A visible frame inside its display frame is still inside it in the
      reported, flipped coordinates. */
  lemma VisibleFrameStaysInside(screens: seq<Screen>, mainScreen: Option<nat>, i: nat)
    requires ValidMainScreen(screens, mainScreen) && mainScreen.Some? && i < |screens|
    requires Inside(screens[i].visibleFrame, screens[i].frame)
    ensures var d := ListDisplays(screens, mainScreen).value[i];
      Inside(Rect(d.visibleX, d.visibleY, d.visibleWidth, d.visibleHeight), Rect(d.x, d.y, d.width, d.height))
  {
    FlipYPreservesInside(screens[i].visibleFrame, screens[i].frame, screens[mainScreen.value].frame.height);
  }

  /** The main screen sits at window-space y = 0 when its display-space origin is (0, 0). */
  lemma MainScreenAtOrigin(screens: seq<Screen>, main: nat)
    requires main < |screens| && screens[main].frame.x == 0 && screens[main].frame.y == 0
    ensures var d := ListDisplays(screens, Some(main)).value[main];
      d.x == 0 && d.y == 0 && d.isMain
  {
  }
}

=== FILE: focus_window_tool.dfy ===
/** `FocusWindowTool`: validates the arguments of `focus_window`, calls the
    window service and reports the result. */
module FocusWindowTool {
  import opened Wrappers
  import opened WindowModels
  import opened ToolResults

  /** The decoded arguments. */
  datatype Input = Input(bundleId: Option<string>, title: Option<string>)

  /** The window service's `focusWindow`. */
  type FocusService = (string, Option<string>) -> ServiceReply<FocusResult>

  /** `execute`: a decodable input with a non-empty bundle ID is passed on
      with its title exactly as given (an empty title is not dropped). */
  function Execute(input: Option<Input>, service: FocusService): (r: ToolResult<FocusResult>)
    ensures input.None? ==> r == ErrorText(DecodeFailureText)
    ensures input.Some? && (input.value.bundleId.None? || input.value.bundleId.value == "") ==>
      r == ErrorText(MissingParameterText("bundleId"))
    ensures input.Some? && input.value.bundleId.Some? && input.value.bundleId.value != "" ==>
      var reply := service(input.value.bundleId.value, input.value.title);
      && (r.Payload? <==> reply.Replied?)
      && (reply.Replied? ==> r.value == reply.value)
      && (reply.Failed? ==> r == ErrorText(WorkspaceErrors.UserMessage(reply.error)))
  {
    match input
    case None => ErrorText(DecodeFailureText)
    case Some(args) =>
      if args.bundleId.None? || args.bundleId.value == "" then ErrorText(MissingParameterText("bundleId"))
      else Report(service(args.bundleId.value, args.title), "エラー: ")
  }

  /** Unlike `position_window`, an empty title reaches the service as the
      empty string. */
  lemma EmptyTitlePassedThrough(bundleId: string, service: FocusService)
    requires bundleId != ""
    ensures Execute(Some(Input(Some(bundleId), Some(""))), service)
         == Report(service(bundleId, Some("")), "エラー: ")
  {
  }

  /** Without a usable bundle ID the service is not consulted. */
  lemma MissingBundleIdSkipsService(title: Option<string>, s1: FocusService, s2: FocusService)
    ensures Execute(Some(Input(None, title)), s1) == Execute(Some(Input(None, title)), s2)
    ensures Execute(Some(Input(Some(""), title)), s1) == Execute(Some(Input(Some(""), title)), s2)
  {
  }
}

=== FILE: geometry.dfy ===
/** Rectangles, containment and the bottom-left / top-left Y flip. */
module Geometry {

  /** An axis-aligned rectangle with integer origin and size: a display frame,
      a visible frame, or a computed target frame. */
  datatype Rect = Rect(x: int, y: int, width: int, height: int)

  /** `inner` lies within `outer`: origin no smaller, far edges no larger. */
  predicate Inside(inner: Rect, outer: Rect) {
    && outer.x <= inner.x
    && outer.y <= inner.y
    && inner.x + inner.width <= outer.x + outer.width
    && inner.y + inner.height <= outer.y + outer.height
  }

  /** The unit pixel cell whose top-left corner is (px, py) belongs to `r`. */
  predicate HasCell(r: Rect, px: int, py: int) {
    r.x <= px < r.x + r.width && r.y <= py < r.y + r.height
  }

  function Min(a: int, b: int): int { if a <= b then a else b }
  function Max(a: int, b: int): int { if a <= b then b else a }

  /** `CGRect.contains(point)`: the rectangle is first standardised (a negative
      size flips the origin), then the minimum edges are included and the
      maximum edges excluded. */
  predicate ContainsPoint(r: Rect, px: real, py: real) {
    && Min(r.x, r.x + r.width) as real <= px < Max(r.x, r.x + r.width) as real
    && Min(r.y, r.y + r.height) as real <= py < Max(r.y, r.y + r.height) as real
  }

  /** Re-expresses `r` on the other side of a horizontal axis of height
      `axisHeight`: the bottom-left-origin display convention becomes the
      top-left-origin window convention, and back. */
  function FlipY(r: Rect, axisHeight: int): (f: Rect)
    ensures f.x == r.x && f.width == r.width && f.height == r.height
    ensures f.y + f.height == axisHeight - r.y
  {
    Rect(r.x, axisHeight - r.y - r.height, r.width, r.height)
  }

  /** Flipping twice against the same axis gives back the original rectangle. */
  lemma FlipYInvolution(r: Rect, axisHeight: int)
    ensures FlipY(FlipY(r, axisHeight), axisHeight) == r
  {
  }

  /** A visible frame inside its display frame stays inside once both are flipped. */
  lemma FlipYPreservesInside(inner: Rect, outer: Rect, axisHeight: int)
    requires Inside(inner, outer)
    ensures Inside(FlipY(inner, axisHeight), FlipY(outer, axisHeight))
  {
  }
}

=== FILE: list_windows_tool.dfy ===
/** `ListWindowsTool`: calls the window service with the optional bundle
    filter and wraps the windows in a `WindowListResponse`. */
module ListWindowsTool {
  import opened Wrappers
  import opened Platform
  import opened WindowModels
  import opened ToolResults
  import WindowService

  /** The decoded arguments. */
  datatype Input = Input(bundleId: Option<string>)

  /** The window service's `listWindows`. */
  type ListService = Option<string> -> ServiceReply<seq<WindowInfo>>

  /** The filter passed on: an undecodable input counts as no filter, and so
      does an empty bundle ID. */
  function Filter(input: Option<Input>): (f: Option<string>)
    ensures f.Some? ==> f.value != "" && input == Some(Input(f))
    ensures f.None? ==> input.None? || input.value.bundleId.None? || input.value.bundleId == Some("")
  {
    match input
    case None => None
    case Some(args) => NonEmpty(args.bundleId)
  }

  /** The service's windows wrapped in the response the tool encodes; the
      failures pass through unchanged. */
  function AsResponse(reply: ServiceReply<seq<WindowInfo>>): (m: ServiceReply<WindowListResponse>)
    ensures m.Replied? <==> reply.Replied?
    ensures m.Replied? ==> m.value.windows == reply.value
    ensures reply.Failed? ==> m == Failed(reply.error)
    ensures reply.Unexpected? ==> m == Unexpected(reply.description)
  {
    match reply
    case Replied(windows) => Replied(WindowListResponse(windows))
    case Failed(e) => Failed(e)
    case Unexpected(description) => Unexpected(description)
  }

  /** `execute`: never rejects its arguments. */
  function Execute(input: Option<Input>, service: ListService): (r: ToolResult<WindowListResponse>)
    ensures r.Payload? <==> service(Filter(input)).Replied?
    ensures r.Payload? ==> r.value.windows == service(Filter(input)).value
    ensures service(Filter(input)).Failed? ==> r == ErrorText(WorkspaceErrors.UserMessage(service(Filter(input)).error))
    ensures service(Filter(input)).Unexpected? ==>
      r == ErrorText("予期しないエラー: " + service(Filter(input)).description)
  {
    Report(AsResponse(service(Filter(input))), "予期しないエラー: ")
  }

  /** The engine's listing as the service, with screen frames taken in `space`. */
  function EngineService(d: Desktop, space: WindowService.FrameSpace): ListService {
    (filter: Option<string>) => Replied(WindowService.ListWindows(d, space, filter))
  }

  /** Served by the engine, the tool always answers with a listing, and a
      non-empty bundle ID keeps only that application's windows. */
  lemma EngineListingNeverFails(d: Desktop, space: WindowService.FrameSpace, input: Option<Input>)
    ensures Execute(input, EngineService(d, space)).Payload?
    ensures input.Some? && input.value.bundleId.Some? && input.value.bundleId.value != "" ==>
      forall k | 0 <= k < |Execute(input, EngineService(d, space)).value.windows| ::
        Execute(input, EngineService(d, space)).value.windows[k].ownerBundleId == input.value.bundleId.value
  {
    var ws := WindowService.ListWindows(d, space, Filter(input));
    assert forall k | 0 <= k < |ws| :: WindowService.BundleFilterAccepts(Filter(input), ws[k].ownerBundleId);
  }

  /** Undecodable arguments and an empty bundle ID both list every application. */
  lemma FallbacksListEverything(service: ListService)
    ensures Execute(None, service) == Execute(Some(Input(None)), service)
    ensures Execute(Some(Input(Some(""))), service) == Execute(Some(Input(None)), service)
  {
  }
}

=== FILE: platform.dfy ===
/** What the engine reads from the operating system, as plain values: the
    screens, the running applications with their accessibility windows, the
    window-server listing, the permission flag, and the accessibility API's
    result codes. */
module Platform {
  import opened Wrappers
  import opened Geometry

  /** An accessibility call's `AXError`, by raw value. */
  datatype AXResult = AXResult(rawValue: int)

  /** `.success`. */
  const Success: AXResult := AXResult(0)

  /** `.actionUnsupported`. */
  const ActionUnsupported: AXResult := AXResult(-25206)

  /** A display as `NSScreen` describes it: frames in display space
      (bottom-left origin, Y upward). */
  datatype Screen = Screen(localizedName: string, frame: Rect, visibleFrame: Rect)

  /** A point and a size in window space, as the accessibility API reports them. */
  datatype Point = Point(x: real, y: real)
  datatype Size = Size(width: real, height: real)

  /** A window-server bounds rectangle, in window space. */
  datatype Bounds = Bounds(x: real, y: real, width: real, height: real)

  /** One accessibility window element, with each attribute as read: `None`
      when the read does not succeed or yields no value of the expected type. */
  datatype AXWindow = AXWindow(
    title: Option<string>,
    position: Option<Point>,
    size: Option<Size>,
    minimized: Option<bool>,
    fullscreen: Option<bool>)

  /** A running application: its process id, bundle identifier and name as
      far as they resolve, and its accessibility window list (`None` when the
      windows attribute cannot be read). */
  datatype RunningApp = RunningApp(
    pid: int,
    bundleIdentifier: Option<string>,
    localizedName: Option<string>,
    axWindows: Option<seq<AXWindow>>)

  /** One window-server listing entry; each field is `None` when the key is
      missing or of the wrong type. */
  datatype CGEntry = CGEntry(
    layer: Option<int>,
    ownerPid: Option<int>,
    bounds: Option<Bounds>,
    name: Option<string>)

  /** A snapshot of everything the engine queries in one request:
      the accessibility permission, the running applications in enumeration
      order, `NSScreen.screens` (the first is the primary display),
      the index of `NSScreen.main`, and the on-screen window listing
      (`None` when the listing call fails). */
  datatype Desktop = Desktop(
    trusted: bool,
    apps: seq<RunningApp>,
    screens: seq<Screen>,
    mainScreen: Option<nat>,
    windowList: Option<seq<CGEntry>>)

  /** `NSScreen.main`, when present, is one of `NSScreen.screens`. */
  predicate ValidMainScreen(screens: seq<Screen>, mainScreen: Option<nat>) {
    mainScreen.Some? ==> mainScreen.value < |screens|
  }
}

=== FILE: position_calculator.dfy ===
/** Target frame of each placement preset within a visible frame.
    Every fractional size is floored; the complementary piece takes the
    remainder instead of a second floor. For a positive divisor Dafny's `/`
    is floor division on every integer, so `floor(w / 2)` is `w / 2` and
    `floor(w * 0.6)` is `(3 * w) / 5`. */
module PositionCalculator {
  import opened Geometry
  import opened WindowPresets

  /** `floor(w * 0.6)`, the size of the centred window on one axis. */
  function SixtyPercent(w: int): (s: int)
    ensures 5 * s <= 3 * w < 5 * s + 5
  {
    (3 * w) / 5
  }

  /** `PositionCalculator.calculateFrame(preset:visibleFrame:)`. */
  function CalculateFrame(preset: WindowPreset, v: Rect): (r: Rect)
    ensures v.width >= 0 && v.height >= 0 ==> Inside(r, v)
    ensures v.width >= 3 && v.height >= 2 ==> r.width > 0 && r.height > 0
  {
    var halfWidth := v.width / 2;
    var halfHeight := v.height / 2;
    var thirdWidth := v.width / 3;
    var twoThirdWidth := thirdWidth * 2;
    match preset
    case Left => Rect(v.x, v.y, halfWidth, v.height)
    case Right => Rect(v.x + halfWidth, v.y, v.width - halfWidth, v.height)
    case Top => Rect(v.x, v.y, v.width, halfHeight)
    case Bottom => Rect(v.x, v.y + halfHeight, v.width, v.height - halfHeight)
    case TopLeft => Rect(v.x, v.y, halfWidth, halfHeight)
    case TopRight => Rect(v.x + halfWidth, v.y, v.width - halfWidth, halfHeight)
    case BottomLeft => Rect(v.x, v.y + halfHeight, halfWidth, v.height - halfHeight)
    case BottomRight =>
      Rect(v.x + halfWidth, v.y + halfHeight, v.width - halfWidth, v.height - halfHeight)
    case LeftThird => Rect(v.x, v.y, thirdWidth, v.height)
    case CenterThird => Rect(v.x + thirdWidth, v.y, thirdWidth, v.height)
    case RightThird => Rect(v.x + twoThirdWidth, v.y, v.width - twoThirdWidth, v.height)
    case LeftTwoThirds => Rect(v.x, v.y, twoThirdWidth, v.height)
    case RightTwoThirds => Rect(v.x + thirdWidth, v.y, v.width - thirdWidth, v.height)
    case Fullscreen => v
    case Center =>
      var windowWidth := SixtyPercent(v.width);
      var windowHeight := SixtyPercent(v.height);
      Rect(v.x + (v.width - windowWidth) / 2, v.y + (v.height - windowHeight) / 2,
           windowWidth, windowHeight)
  }

  /** Left and right split the width at `floor(width / 2)` and meet there. */
  lemma HalvesSplitWidth(v: Rect)
    ensures CalculateFrame(Left, v) == Rect(v.x, v.y, v.width / 2, v.height)
    ensures CalculateFrame(Right, v).x == v.x + CalculateFrame(Left, v).width
    ensures CalculateFrame(Left, v).width + CalculateFrame(Right, v).width == v.width
    ensures CalculateFrame(Right, v).y == v.y && CalculateFrame(Right, v).height == v.height
  {
  }

  /** Top and bottom split the height at `floor(height / 2)` and meet there. */
  lemma HalvesSplitHeight(v: Rect)
    ensures CalculateFrame(Top, v) == Rect(v.x, v.y, v.width, v.height / 2)
    ensures CalculateFrame(Bottom, v).y == v.y + v.height / 2
    ensures CalculateFrame(Bottom, v).height == v.height - v.height / 2
    ensures CalculateFrame(Top, v).height + CalculateFrame(Bottom, v).height == v.height
    ensures CalculateFrame(Bottom, v).x == v.x && CalculateFrame(Bottom, v).width == v.width
  {
  }

  /** Each quarter takes its columns from the matching vertical half and its
      rows from the matching horizontal half. */
  lemma QuartersComposeHalves(v: Rect)
    ensures var tl := CalculateFrame(TopLeft, v);
      tl.x == CalculateFrame(Left, v).x && tl.width == CalculateFrame(Left, v).width
      && tl.y == CalculateFrame(Top, v).y && tl.height == CalculateFrame(Top, v).height
    ensures var tr := CalculateFrame(TopRight, v);
      tr.x == CalculateFrame(Right, v).x && tr.width == CalculateFrame(Right, v).width
      && tr.y == CalculateFrame(Top, v).y && tr.height == CalculateFrame(Top, v).height
    ensures var bl := CalculateFrame(BottomLeft, v);
      bl.x == CalculateFrame(Left, v).x && bl.width == CalculateFrame(Left, v).width
      && bl.y == CalculateFrame(Bottom, v).y && bl.height == CalculateFrame(Bottom, v).height
    ensures var br := CalculateFrame(BottomRight, v);
      br.x == CalculateFrame(Right, v).x && br.width == CalculateFrame(Right, v).width
      && br.y == CalculateFrame(Bottom, v).y && br.height == CalculateFrame(Bottom, v).height
  {
  }

  /** The number of quarter presets whose frame holds the cell (px, py). */
  function QuarterOwners(v: Rect, px: int, py: int): nat {
    (if HasCell(CalculateFrame(TopLeft, v), px, py) then 1 else 0)
    + (if HasCell(CalculateFrame(TopRight, v), px, py) then 1 else 0)
    + (if HasCell(CalculateFrame(BottomLeft, v), px, py) then 1 else 0)
    + (if HasCell(CalculateFrame(BottomRight, v), px, py) then 1 else 0)
  }

  /** The four quarters tile the visible frame: every cell of it lies in
      exactly one quarter, and no cell outside it lies in any. */
  lemma QuartersTile(v: Rect, px: int, py: int)
    requires v.width >= 0 && v.height >= 0
    ensures HasCell(v, px, py) ==> QuarterOwners(v, px, py) == 1
    ensures !HasCell(v, px, py) ==> QuarterOwners(v, px, py) == 0
  {
  }

  /** The number of single-third presets whose frame holds the cell (px, py). */
  function ThirdOwners(v: Rect, px: int, py: int): nat {
    (if HasCell(CalculateFrame(LeftThird, v), px, py) then 1 else 0)
    + (if HasCell(CalculateFrame(CenterThird, v), px, py) then 1 else 0)
    + (if HasCell(CalculateFrame(RightThird, v), px, py) then 1 else 0)
  }

  /** Left, centre and right thirds are adjacent, their widths add up to the
      full width, and together they tile the visible frame. */
  lemma ThirdsTile(v: Rect, px: int, py: int)
    requires v.width >= 0 && v.height >= 0
    ensures CalculateFrame(CenterThird, v).x
         == CalculateFrame(LeftThird, v).x + CalculateFrame(LeftThird, v).width
    ensures CalculateFrame(RightThird, v).x
         == CalculateFrame(CenterThird, v).x + CalculateFrame(CenterThird, v).width
    ensures CalculateFrame(LeftThird, v).width + CalculateFrame(CenterThird, v).width
          + CalculateFrame(RightThird, v).width == v.width
    ensures HasCell(v, px, py) ==> ThirdOwners(v, px, py) == 1
    ensures !HasCell(v, px, py) ==> ThirdOwners(v, px, py) == 0
  {
  }

  /** The two-thirds presets: left is twice `floor(width / 3)` wide and covers
      the left and centre thirds; right starts one third in, ends at the far
      edge and covers the centre and right thirds. */
  lemma TwoThirdsCoverThirds(v: Rect, px: int, py: int)
    requires v.width >= 0
    ensures CalculateFrame(LeftTwoThirds, v).width == 2 * (v.width / 3)
    ensures CalculateFrame(RightTwoThirds, v).x == v.x + v.width / 3
    ensures CalculateFrame(RightTwoThirds, v).x + CalculateFrame(RightTwoThirds, v).width
         == v.x + v.width
    ensures HasCell(CalculateFrame(LeftTwoThirds, v), px, py)
        <==> (HasCell(CalculateFrame(LeftThird, v), px, py)
              || HasCell(CalculateFrame(CenterThird, v), px, py))
    ensures HasCell(CalculateFrame(RightTwoThirds, v), px, py)
        <==> (HasCell(CalculateFrame(CenterThird, v), px, py)
              || HasCell(CalculateFrame(RightThird, v), px, py))
  {
  }

  /** Fullscreen is the visible frame itself. */
  lemma FullscreenIsIdentity(v: Rect)
    ensures CalculateFrame(Fullscreen, v) == v
  {
  }

  /** The centred window is `floor(0.6 * dim)` on each axis, and the space
      left over is split with the smaller margin first, differing by at most one. */
  lemma CenterIsCentred(v: Rect)
    ensures var c := CalculateFrame(Center, v);
      && 5 * c.width <= 3 * v.width < 5 * c.width + 5
      && 5 * c.height <= 3 * v.height < 5 * c.height + 5
      && c.x - v.x == (v.width - c.width) / 2
      && c.y - v.y == (v.height - c.height) / 2
    ensures var c := CalculateFrame(Center, v);
      var leftMargin := c.x - v.x;
      var rightMargin := v.x + v.width - (c.x + c.width);
      leftMargin <= rightMargin <= leftMargin + 1
    ensures var c := CalculateFrame(Center, v);
      var topMargin := c.y - v.y;
      var bottomMargin := v.y + v.height - (c.y + c.height);
      topMargin <= bottomMargin <= topMargin + 1
  {
  }

  /** The scenarios the calculator's tests fix on a 1920 x 1055 visible frame
      and on a frame left of the primary display. */
  lemma DocumentedFrames()
    ensures CalculateFrame(Left, Rect(0, 0, 1920, 1055)) == Rect(0, 0, 960, 1055)
    ensures CalculateFrame(Top, Rect(0, 0, 1920, 1055)) == Rect(0, 0, 1920, 527)
    ensures CalculateFrame(Bottom, Rect(0, 0, 1920, 1055)) == Rect(0, 527, 1920, 528)
    ensures CalculateFrame(BottomRight, Rect(0, 0, 1920, 1055)) == Rect(960, 527, 960, 528)
    ensures CalculateFrame(RightThird, Rect(0, 0, 1920, 1055)) == Rect(1280, 0, 640, 1055)
    ensures CalculateFrame(RightTwoThirds, Rect(0, 0, 1920, 1055)) == Rect(640, 0, 1280, 1055)
    ensures CalculateFrame(Right, Rect(-1920, 0, 1920, 1080)) == Rect(-960, 0, 960, 1080)
  {
  }

  /** The centre scenario its own test fixes: a 1920 x 1025 visible frame
      below a 25-point menu bar. */
  lemma DocumentedCenterFrame()
    ensures CalculateFrame(Center, Rect(0, 25, 1920, 1025)) == Rect(384, 230, 1152, 615)
  {
  }
}

=== FILE: position_window_tool.dfy ===
/** `PositionWindowTool`: validates the arguments of `position_window`,
    calls the window service and reports the result. */
module PositionWindowTool {
  import opened Wrappers
  import opened Sequences
  import opened WindowPresets
  import opened WindowModels
  import opened ToolResults

  /** The decoded arguments; every one may be absent. */
  datatype Input = Input(
    bundleId: Option<string>,
    preset: Option<string>,
    title: Option<string>,
    displayName: Option<string>)

  /** A validated request, as passed to `positionWindow`. */
  datatype Request = Request(bundleId: string, title: Option<string>, preset: WindowPreset, displayName: Option<string>)

  /** The window service's `positionWindow`. */
  type PositionService = (string, Option<string>, WindowPreset, Option<string>) -> ServiceReply<PositionResult>

  /** Every preset's raw value, comma-separated, in declaration order. */
  function ValidPresets(): string {
    Join(seq(|AllCases|, i requires 0 <= i < |AllCases| => RawValue(AllCases[i])), ", ")
  }

  /** The text for a preset string that names no preset. */
  function InvalidPresetText(presetString: string): (t: string)
    ensures IsInfix(presetString, t)
    ensures forall p: WindowPreset :: IsInfix(RawValue(p), t)
  {
    var head := "エラー: 不正なプリセット値 '";
    var middle := "' です。有効な値: ";
    var t := head + presetString + middle + ValidPresets();
    InfixMiddle(head, presetString, middle + ValidPresets());
    assert t == head + presetString + (middle + ValidPresets());
    AllCasesEnumeratesEachOnce();
    forall p: WindowPreset ensures IsInfix(RawValue(p), t) {
      assert p in AllCases;
      var i :| 0 <= i < |AllCases| && AllCases[i] == p;
      var names := seq(|AllCases|, i requires 0 <= i < |AllCases| => RawValue(AllCases[i]));
      JoinContainsEach(names, ", ", i);
      InfixWiden(RawValue(p), head + presetString + middle, ValidPresets(), []);
      assert head + presetString + middle + ValidPresets() + [] == t;
    }
    t
  }

  /** The validation of `execute`, in its order: decoding, a non-empty
      bundle ID, a non-empty preset, a preset that parses; then the optional
      title and display name with "" read as absent. */
  function Validate(input: Option<Input>): (r: Result<Request, string>)
    ensures input.None? ==> r == Err(DecodeFailureText)
    ensures input.Some? && (input.value.bundleId.None? || input.value.bundleId.value == "") ==>
      r == Err(MissingParameterText("bundleId"))
    ensures (input.Some? && input.value.bundleId.Some? && input.value.bundleId.value != ""
             && (input.value.preset.None? || input.value.preset.value == "")) ==>
      r == Err(MissingParameterText("preset"))
    ensures (input.Some? && input.value.bundleId.Some? && input.value.bundleId.value != ""
             && input.value.preset.Some? && input.value.preset.value != ""
             && (forall p: WindowPreset :: RawValue(p) != input.value.preset.value)) ==>
      && r.Err?
      && IsInfix(input.value.preset.value, r.error)
      && (forall p: WindowPreset :: IsInfix(RawValue(p), r.error))
    ensures r.Ok? ==>
      && input.Some?
      && input.value.bundleId == Some(r.value.bundleId) && r.value.bundleId != ""
      && input.value.preset == Some(RawValue(r.value.preset))
      && r.value.title == NonEmpty(input.value.title)
      && r.value.displayName == NonEmpty(input.value.displayName)
  {
    match input
    case None => Err(DecodeFailureText)
    case Some(args) =>
      if args.bundleId.None? || args.bundleId.value == "" then Err(MissingParameterText("bundleId"))
      else if args.preset.None? || args.preset.value == "" then Err(MissingParameterText("preset"))
      else
        match Parse(args.preset.value)
        case None => Err(InvalidPresetText(args.preset.value))
        case Some(preset) =>
          Ok(Request(args.bundleId.value, NonEmpty(args.title), preset, NonEmpty(args.displayName)))
  }

  /** Every preset's raw value passes validation with a bundle ID. */
  lemma EveryPresetAccepted(bundleId: string, p: WindowPreset, title: Option<string>, displayName: Option<string>)
    requires bundleId != ""
    ensures Validate(Some(Input(Some(bundleId), Some(RawValue(p)), title, displayName)))
         == Ok(Request(bundleId, NonEmpty(title), p, NonEmpty(displayName)))
  {
    ParseRawValue(p);
  }

  /** `execute`. */
  function Execute(input: Option<Input>, service: PositionService): (r: ToolResult<PositionResult>)
    ensures Validate(input).Err? ==> r == ErrorText(Validate(input).error)
    ensures Validate(input).Ok? ==>
      var q := Validate(input).value;
      var reply := service(q.bundleId, q.title, q.preset, q.displayName);
      && (r.Payload? <==> reply.Replied?)
      && (reply.Replied? ==> r.value == reply.value)
      && (reply.Failed? ==> r == ErrorText(WorkspaceErrors.UserMessage(reply.error)))
  {
    match Validate(input)
    case Err(text) => ErrorText(text)
    case Ok(q) => Report(service(q.bundleId, q.title, q.preset, q.displayName), "予期しないエラー: ")
  }

  /** Invalid arguments are answered without calling the service. */
  lemma InvalidInputSkipsService(input: Option<Input>, s1: PositionService, s2: PositionService)
    requires Validate(input).Err?
    ensures Execute(input, s1) == Execute(input, s2)
  {
  }

  /** An empty title or display name reaches the service as absent. */
  lemma EmptyOptionalsAreAbsent(bundleId: Option<string>, preset: Option<string>, service: PositionService)
    ensures Execute(Some(Input(bundleId, preset, Some(""), Some(""))), service)
         == Execute(Some(Input(bundleId, preset, None, None)), service)
  {
  }
}

=== FILE: sequences.dfy ===
/** Searching and joining sequences: the first-match loops, `String.contains`
    and `joined(separator:)` that the window engine and the tools rely on. */
module Sequences {
  import opened Wrappers

  /** Index of the first element satisfying `p`: the `for … { if p { return } }`
      scan the source performs over screens, apps and windows. */
  function FirstIndex<T>(s: seq<T>, p: T -> bool): (r: Option<nat>)
    ensures r.Some? ==> r.value < |s| && p(s[r.value])
    ensures r.Some? ==> forall j | 0 <= j < r.value :: !p(s[j])
    ensures r.None? <==> forall j | 0 <= j < |s| :: !p(s[j])
  {
    if |s| == 0 then None
    else if p(s[0]) then Some(0)
    else
      match FirstIndex(s[1..], p)
      case None => None
      case Some(i) => Some(i + 1)
  }

  /** The first index is the only one that satisfies `p` with no earlier
      element satisfying it. */
  lemma FirstIndexUnique<T>(s: seq<T>, p: T -> bool, k: nat)
    requires k < |s| && p(s[k])
    requires forall j | 0 <= j < k :: !p(s[j])
    ensures FirstIndex(s, p) == Some(k)
  {
  }

  /** `needle` occurs in `hay` starting at position `i`. */
  predicate OccursAt<T(==)>(needle: seq<T>, hay: seq<T>, i: int) {
    0 <= i <= |hay| - |needle| && hay[i..i + |needle|] == needle
  }

  /** Reference definition of "is a contiguous part of". */
  predicate IsInfix<T(==)>(needle: seq<T>, hay: seq<T>) {
    exists i | 0 <= i <= |hay| :: OccursAt(needle, hay, i)
  }

  /** Substring search as a left-to-right scan, the way `String.contains`
      looks for a title filter. */
  function ContainsInfix<T(==)>(hay: seq<T>, needle: seq<T>): bool
    decreases |hay|
  {
    if |needle| > |hay| then false
    else if hay[..|needle|] == needle then true
    else if |hay| == 0 then false
    else ContainsInfix(hay[1..], needle)
  }

  /** The scan finds exactly the occurrences the reference definition allows. */
  lemma {:induction false} ContainsInfixIsInfix<T>(hay: seq<T>, needle: seq<T>)
    ensures ContainsInfix(hay, needle) <==> IsInfix(needle, hay)
    decreases |hay|
  {
    if |needle| > |hay| {
    } else if hay[..|needle|] == needle {
      assert OccursAt(needle, hay, 0);
    } else if |hay| == 0 {
    } else {
      ContainsInfixIsInfix(hay[1..], needle);
      if IsInfix(needle, hay[1..]) {
        var i :| 0 <= i <= |hay[1..]| && OccursAt(needle, hay[1..], i);
        assert hay[1..][i..i + |needle|] == hay[i + 1..i + 1 + |needle|];
        assert OccursAt(needle, hay, i + 1);
      }
      if IsInfix(needle, hay) {
        var i :| 0 <= i <= |hay| && OccursAt(needle, hay, i);
        assert hay[0..|needle|] == hay[..|needle|];
        assert i != 0;
        assert hay[1..][i - 1..i - 1 + |needle|] == hay[i..i + |needle|];
        assert OccursAt(needle, hay[1..], i - 1);
      }
    }
  }

  /** The middle piece of a concatenation occurs in it. */
  lemma InfixMiddle<T>(a: seq<T>, b: seq<T>, c: seq<T>)
    ensures IsInfix(b, a + b + c)
  {
    assert (a + b + c)[|a|..|a| + |b|] == b;
    assert OccursAt(b, a + b + c, |a|);
  }

  /** Whatever occurs in `b` still occurs once text is added on both sides. */
  lemma InfixWiden<T>(x: seq<T>, a: seq<T>, b: seq<T>, c: seq<T>)
    requires IsInfix(x, b)
    ensures IsInfix(x, a + b + c)
  {
    var i :| 0 <= i <= |b| && OccursAt(x, b, i);
    assert (a + b + c)[|a| + i..|a| + i + |x|] == b[i..i + |x|];
    assert OccursAt(x, a + b + c, |a| + i);
  }

  /** `xs.joined(separator: sep)`. */
  function Join(xs: seq<seq<char>>, sep: seq<char>): seq<char> {
    if |xs| == 0 then []
    else if |xs| == 1 then xs[0]
    else xs[0] + sep + Join(xs[1..], sep)
  }

  /** Every joined item can be found in the joined text. */
  lemma {:induction false} JoinContainsEach(xs: seq<seq<char>>, sep: seq<char>, i: nat)
    requires i < |xs|
    ensures IsInfix(xs[i], Join(xs, sep))
    decreases |xs|
  {
    if |xs| == 1 {
      InfixMiddle([], xs[0], []);
      assert [] + xs[0] + [] == xs[0];
    } else if i == 0 {
      InfixMiddle([], xs[0], sep + Join(xs[1..], sep));
      assert [] + xs[0] + (sep + Join(xs[1..], sep)) == Join(xs, sep);
    } else {
      JoinContainsEach(xs[1..], sep, i - 1);
      InfixWiden(xs[i], xs[0] + sep, Join(xs[1..], sep), []);
      assert xs[0] + sep + Join(xs[1..], sep) + [] == Join(xs, sep);
    }
  }

  /** Decimal digit for 0..9. */
  function DigitChar(d: nat): char
    requires d < 10
  {
    "0123456789"[d]
  }

  /** Decimal text of a natural number, most significant digit first. */
  function NatToDecimal(n: nat): (r: string)
    ensures |r| > 0
    ensures forall k | 0 <= k < |r| :: '0' <= r[k] <= '9'
  {
    if n < 10 then [DigitChar(n)]
    else NatToDecimal(n / 10) + [DigitChar(n % 10)]
  }

  /** Value of a string of decimal digits. */
  function DecimalValue(s: string): nat
    requires forall k | 0 <= k < |s| :: '0' <= s[k] <= '9'
  {
    if |s| == 0 then 0
    else 10 * DecimalValue(s[..|s| - 1]) + (s[|s| - 1] as int - '0' as int)
  }

  /** Reading the decimal text back gives the number printed. */
  lemma {:induction false} NatToDecimalRoundTrip(n: nat)
    ensures DecimalValue(NatToDecimal(n)) == n
  {
    if n >= 10 {
      NatToDecimalRoundTrip(n / 10);
      var s := NatToDecimal(n);
      assert s[..|s| - 1] == NatToDecimal(n / 10);
    }
  }

  /** Swift's `"\(n)"` for an integer: a minus sign before the decimal
      digits of the magnitude. */
  function IntToDecimal(n: int): (r: string)
    ensures n < 0 <==> (|r| > 0 && r[0] == '-')
    ensures n >= 0 ==> (forall k | 0 <= k < |r| :: '0' <= r[k] <= '9') && DecimalValue(r) == n
    ensures n < 0 ==> |r| > 1 && r[1..] == IntToDecimal(-n)
    decreases if n < 0 then 1 else 0
  {
    if n < 0 then
      var digits := NatToDecimal(-n);
      assert (['-'] + digits)[1..] == digits;
      ['-'] + digits
    else
      NatToDecimalRoundTrip(n);
      NatToDecimal(n)
  }
}

=== FILE: tool_result.dfy ===
/** What the tools share: the result handed back to the client, the ways a
    service call can end, and the normalisation of optional text arguments. */
module ToolResults {
  import opened Wrappers
  import opened Sequences
  import opened WorkspaceErrors

  /** `CallTool.Result`: the encoded value on success, or an error text
      (`isError: true`). */
  datatype ToolResult<+T> = Payload(value: T) | ErrorText(text: string)

  /** How a call into the window service ends: a value, a `WorkspaceError`,
      or any other error, by its description. */
  datatype ServiceReply<+T> = Replied(value: T) | Failed(error: WorkspaceError) | Unexpected(description: string)

  /** The text returned when the arguments do not decode. */
  const DecodeFailureText: string := "エラー: 引数のデコードに失敗しました。"

  /** The text returned when a required parameter is missing or empty. */
  function MissingParameterText(name: string): (t: string)
    ensures IsInfix(name, t)
  {
    InfixMiddle("エラー: パラメーター '", name, "' は必須です。");
    "エラー: パラメーター '" + name + "' は必須です。"
  }

  /** An optional argument whose empty string counts as absent. */
  function NonEmpty(o: Option<string>): (r: Option<string>)
    ensures r.Some? <==> o.Some? && o.value != ""
    ensures r.Some? ==> r == o
  {
    if o.Some? && o.value != "" then o else None
  }

  /** Normalising twice is normalising once, and "" and absence are one. */
  lemma NonEmptyNormalises(o: Option<string>)
    ensures NonEmpty(NonEmpty(o)) == NonEmpty(o)
    ensures NonEmpty(Some("")) == NonEmpty(None) == None
  {
  }

  /** The tool's answer to a service reply: the value, the error's user
      message, or the description of an unexpected error after `prefix`. */
  function Report<T>(reply: ServiceReply<T>, prefix: string): (r: ToolResult<T>)
    ensures r.Payload? <==> reply.Replied?
    ensures reply.Replied? ==> r.value == reply.value
    ensures reply.Failed? ==> r.text == UserMessage(reply.error)
    ensures reply.Unexpected? ==> r.text == prefix + reply.description
  {
    match reply
    case Replied(v) => Payload(v)
    case Failed(e) => ErrorText(UserMessage(e))
    case Unexpected(description) => ErrorText(prefix + description)
  }
}

=== FILE: window_models.dfy ===
/** The records the engine returns: plain values without behaviour. */
module WindowModels {
  import opened WindowPresets

  /** A window as reported to the client, in window space (top-left origin). */
  datatype WindowInfo = WindowInfo(
    title: string,
    x: real,
    y: real,
    width: real,
    height: real,
    isMinimized: bool,
    isFullscreen: bool,
    displayName: string,
    ownerBundleId: string,
    ownerName: string)

  /** The window after placement, the preset applied and the display chosen. */
  datatype PositionResult = PositionResult(
    window: WindowInfo,
    appliedPreset: WindowPreset,
    displayName: string)

  /** The window after it was brought to the front. */
  datatype FocusResult = FocusResult(window: WindowInfo)

  /** A display with its frame and visible frame in window space. */
  datatype DisplayInfo = DisplayInfo(
    name: string,
    width: int,
    height: int,
    x: int,
    y: int,
    visibleX: int,
    visibleY: int,
    visibleWidth: int,
    visibleHeight: int,
    isMain: bool)

  /** The list-windows response wrapper. */
  datatype WindowListResponse = WindowListResponse(windows: seq<WindowInfo>)
}

=== FILE: window_preset.dfy ===
/** The closed set of placement presets and their string tags. */
module WindowPresets {
  import opened Wrappers

  /** The fifteen presets, in declaration order: halves, quarters, thirds,
      fullscreen and the 60% centred window. */
  datatype WindowPreset =
    | Left | Right | Top | Bottom
    | TopLeft | TopRight | BottomLeft | BottomRight
    | LeftThird | CenterThird | RightThird | LeftTwoThirds | RightTwoThirds
    | Fullscreen
    | Center

  /** The raw value of each case: its Swift case name. */
  function RawValue(p: WindowPreset): string {
    match p
    case Left => "left"
    case Right => "right"
    case Top => "top"
    case Bottom => "bottom"
    case TopLeft => "topLeft"
    case TopRight => "topRight"
    case BottomLeft => "bottomLeft"
    case BottomRight => "bottomRight"
    case LeftThird => "leftThird"
    case CenterThird => "centerThird"
    case RightThird => "rightThird"
    case LeftTwoThirds => "leftTwoThirds"
    case RightTwoThirds => "rightTwoThirds"
    case Fullscreen => "fullscreen"
    case Center => "center"
  }

  /** `WindowPreset.allCases`, in declaration order. */
  const AllCases: seq<WindowPreset> := [
    Left, Right, Top, Bottom,
    TopLeft, TopRight, BottomLeft, BottomRight,
    LeftThird, CenterThird, RightThird, LeftTwoThirds, RightTwoThirds,
    Fullscreen,
    Center
  ]

  /** `WindowPreset(rawValue:)`: the preset whose tag is exactly `s`, if any. */
  function Parse(s: string): (r: Option<WindowPreset>)
    ensures r.Some? ==> RawValue(r.value) == s
    ensures r.None? ==> forall p: WindowPreset :: RawValue(p) != s
  {
    if s == "left" then Some(Left)
    else if s == "right" then Some(Right)
    else if s == "top" then Some(Top)
    else if s == "bottom" then Some(Bottom)
    else if s == "topLeft" then Some(TopLeft)
    else if s == "topRight" then Some(TopRight)
    else if s == "bottomLeft" then Some(BottomLeft)
    else if s == "bottomRight" then Some(BottomRight)
    else if s == "leftThird" then Some(LeftThird)
    else if s == "centerThird" then Some(CenterThird)
    else if s == "rightThird" then Some(RightThird)
    else if s == "leftTwoThirds" then Some(LeftTwoThirds)
    else if s == "rightTwoThirds" then Some(RightTwoThirds)
    else if s == "fullscreen" then Some(Fullscreen)
    else if s == "center" then Some(Center)
    else None
  }

  /** All cases lists every preset exactly once: fifteen distinct entries. */
  lemma AllCasesEnumeratesEachOnce()
    ensures |AllCases| == 15
    ensures forall p: WindowPreset :: p in AllCases
    ensures forall i, j | 0 <= i < j < |AllCases| :: AllCases[i] != AllCases[j]
  {
    forall p: WindowPreset ensures p in AllCases {
      match p
      case Left => assert AllCases[0] == p;
      case Right => assert AllCases[1] == p;
      case Top => assert AllCases[2] == p;
      case Bottom => assert AllCases[3] == p;
      case TopLeft => assert AllCases[4] == p;
      case TopRight => assert AllCases[5] == p;
      case BottomLeft => assert AllCases[6] == p;
      case BottomRight => assert AllCases[7] == p;
      case LeftThird => assert AllCases[8] == p;
      case CenterThird => assert AllCases[9] == p;
      case RightThird => assert AllCases[10] == p;
      case LeftTwoThirds => assert AllCases[11] == p;
      case RightTwoThirds => assert AllCases[12] == p;
      case Fullscreen => assert AllCases[13] == p;
      case Center => assert AllCases[14] == p;
    }
  }

  /** Distinct presets have distinct tags. */
  lemma RawValueInjective(p: WindowPreset, q: WindowPreset)
    ensures RawValue(p) == RawValue(q) ==> p == q
  {
  }

  /** Parsing a preset's tag gives back that preset. */
  lemma ParseRawValue(p: WindowPreset)
    ensures Parse(RawValue(p)) == Some(p)
  {
    RawValueInjective(p, Parse(RawValue(p)).value);
  }

  /** A string that is no preset's tag is rejected. */
  lemma ParseRejectsInvalid()
    ensures Parse("invalid") == None
    ensures Parse("") == None
    ensures Parse("Left") == None
  {
  }
}

=== FILE: window_service.dfy ===
/** `DefaultWindowService`: listing windows, finding the target window of a
    request, choosing its display, and placing or focusing it through the
    accessibility API. Every platform query reads the `Desktop` snapshot;
    the results of accessibility writes and the state re-read after them are
    parameters, and each operation returns the trace of calls it issued. */
module WindowService {
  import opened Wrappers
  import opened Sequences
  import opened Geometry
  import opened Platform
  import opened WindowPresets
  import opened WindowModels
  import opened WorkspaceErrors
  import PositionCalculator

  // ---------------------------------------------------------------------
  // Lookups

  /** `NSRunningApplication(processIdentifier:)`. */
  function AppWithPid(apps: seq<RunningApp>, pid: int): (r: Option<RunningApp>)
    ensures r.Some? ==> r.value in apps && r.value.pid == pid
    ensures r.None? ==> forall k | 0 <= k < |apps| :: apps[k].pid != pid
    ensures r.Some? ==> exists k | 0 <= k < |apps| :: apps[k] == r.value && forall j | 0 <= j < k :: apps[j].pid != pid
  {
    match FirstIndex(apps, (a: RunningApp) => a.pid == pid)
    case Some(k) => Some(apps[k])
    case None => None
  }

  /** `NSRunningApplication.runningApplications(withBundleIdentifier:).first`. */
  function RunningAppFor(apps: seq<RunningApp>, bundleId: string): (r: Option<RunningApp>)
    ensures r.Some? ==> r.value in apps && r.value.bundleIdentifier == Some(bundleId)
    ensures r.None? ==> forall k | 0 <= k < |apps| :: apps[k].bundleIdentifier != Some(bundleId)
    ensures r.Some? ==>
      exists k | 0 <= k < |apps| :: apps[k] == r.value && forall j | 0 <= j < k :: apps[j].bundleIdentifier != Some(bundleId)
  {
    match FirstIndex(apps, (a: RunningApp) => a.bundleIdentifier == Some(bundleId))
    case Some(k) => Some(apps[k])
    case None => None
  }

  // ---------------------------------------------------------------------
  // Display attribution

  /** The space a screen frame is taken in when it is tested against a
      window-space point: as `NSScreen` supplies it (display space, Y up) or
      flipped against the primary screen into window space (Y down). */
  datatype FrameSpace = DisplaySpace | WindowSpace

  /** `s`'s frame in `space`, with `screens` supplying the primary screen. */
  function FrameIn(screens: seq<Screen>, space: FrameSpace, s: Screen): (f: Rect)
    ensures space == DisplaySpace ==> f == s.frame
    ensures space == WindowSpace ==> f == ConvertToScreenCoordinates(screens, s.frame)
  {
    match space
    case DisplaySpace => s.frame
    case WindowSpace => ConvertToScreenCoordinates(screens, s.frame)
  }

  /** The screen's frame, taken in `space`, contains the point. */
  predicate ScreenContains(screens: seq<Screen>, space: FrameSpace, s: Screen, px: real, py: real) {
    ContainsPoint(FrameIn(screens, space, s), px, py)
  }

  /** `determineDisplay`: the name of the first screen whose frame contains
      the window's centre, or "Unknown". */
  function DetermineDisplay(screens: seq<Screen>, space: FrameSpace, x: real, y: real, width: real, height: real)
    : (name: string)
    ensures var cx, cy := x + width / 2.0, y + height / 2.0;
      (forall i | 0 <= i < |screens| :: !ScreenContains(screens, space, screens[i], cx, cy)) ==> name == "Unknown"
    ensures var cx, cy := x + width / 2.0, y + height / 2.0;
      forall i | 0 <= i < |screens| && ScreenContains(screens, space, screens[i], cx, cy)
        && (forall j | 0 <= j < i :: !ScreenContains(screens, space, screens[j], cx, cy)) ::
        name == screens[i].localizedName
  {
    var cx, cy := x + width / 2.0, y + height / 2.0;
    match FirstIndex(screens, (s: Screen) => ScreenContains(screens, space, s, cx, cy))
    case Some(i) => screens[i].localizedName
    case None => "Unknown"
  }

  /** `convertToScreenCoordinates`: flips a display-space rectangle against
      the height of the first screen, or leaves it alone when there is none. */
  function ConvertToScreenCoordinates(screens: seq<Screen>, r: Rect): (c: Rect)
    ensures |screens| == 0 ==> c == r
    ensures c.x == r.x && c.width == r.width && c.height == r.height
    ensures |screens| > 0 ==> c.y == screens[0].frame.height - r.y - r.height
  {
    if |screens| == 0 then r else FlipY(r, screens[0].frame.height)
  }

  /** Converting twice against the same screens gives back the original. */
  lemma ConvertToScreenCoordinatesInvolution(screens: seq<Screen>, r: Rect)
    ensures ConvertToScreenCoordinates(screens, ConvertToScreenCoordinates(screens, r)) == r
  {
    if |screens| > 0 {
      FlipYInvolution(r, screens[0].frame.height);
    }
  }

  // ---------------------------------------------------------------------
  // Listing: window-server entries joined with accessibility flags

  function Abs(v: real): real { if v < 0.0 then -v else v }

  /** `matchesWindow`: the accessibility window has the entry's non-empty
      title, or its position and size are each strictly within 1.0 of the
      entry's bounds (an unreadable position or size counts as zero). */
  function MatchesWindow(ax: AXWindow, title: string, bounds: Bounds): (m: bool)
    ensures m <==>
      || (title != "" && TitleOf(ax) == title)
      || (var p, z := ax.position.GetOr(Point(0.0, 0.0)), ax.size.GetOr(Size(0.0, 0.0));
          && bounds.x - 1.0 < p.x < bounds.x + 1.0
          && bounds.y - 1.0 < p.y < bounds.y + 1.0
          && bounds.width - 1.0 < z.width < bounds.width + 1.0
          && bounds.height - 1.0 < z.height < bounds.height + 1.0)
  {
    var axTitle := ax.title.GetOr("");
    if title != "" && axTitle == title then true
    else
      var position := ax.position.GetOr(Point(0.0, 0.0));
      var size := ax.size.GetOr(Size(0.0, 0.0));
      && Abs(position.x - bounds.x) < 1.0
      && Abs(position.y - bounds.y) < 1.0
      && Abs(size.width - bounds.width) < 1.0
      && Abs(size.height - bounds.height) < 1.0
  }

  /** A non-empty title equal on both sides matches whatever the geometry. */
  lemma TitleMatchIgnoresGeometry(ax: AXWindow, title: string, bounds: Bounds)
    requires title != "" && ax.title == Some(title)
    ensures MatchesWindow(ax, title, bounds)
  {
  }

  /** An untitled entry is matched by geometry alone, and a difference of
      exactly 1.0 on any coordinate is already too far. */
  lemma UntitledEntryMatchesByGeometry(ax: AXWindow, bounds: Bounds, position: Point, size: Size)
    requires ax.position == Some(position) && ax.size == Some(size)
    ensures MatchesWindow(ax, "", bounds)
        <==> (Abs(position.x - bounds.x) < 1.0 && Abs(position.y - bounds.y) < 1.0
              && Abs(size.width - bounds.width) < 1.0 && Abs(size.height - bounds.height) < 1.0)
    ensures position.x == bounds.x + 1.0 ==> !MatchesWindow(ax, "", bounds)
  {
  }

  /** The minimized and fullscreen flags attached to one listing entry. */
  datatype WindowFlags = WindowFlags(isMinimized: bool, isFullscreen: bool)

  /** The flags an accessibility window reports, unreadable ones as false. */
  function FlagsOf(ax: AXWindow): WindowFlags {
    WindowFlags(ax.minimized.GetOr(false), ax.fullscreen.GetOr(false))
  }

  /** The flag join of the listing loop: with the permission and a readable
      window list, the first matching accessibility window supplies the
      flags; otherwise both are false. */
  function JoinFlags(trusted: bool, axWindows: Option<seq<AXWindow>>, title: string, bounds: Bounds)
    : (f: WindowFlags)
    ensures !trusted || axWindows.None? ==> f == WindowFlags(false, false)
  {
    if !trusted || axWindows.None? then WindowFlags(false, false)
    else
      var ws := axWindows.value;
      match FirstIndex(ws, MatcherFor(title, bounds))
      case Some(k) => FlagsOf(ws[k])
      case None => WindowFlags(false, false)
  }

  /** The match test of the join as a predicate on accessibility windows. */
  function MatcherFor(title: string, bounds: Bounds): AXWindow -> bool {
    (w: AXWindow) => MatchesWindow(w, title, bounds)
  }

  /** With permission, the first accessibility window that matches the
      listing entry supplies its minimized and fullscreen flags. */
  lemma JoinFlagsFirstMatch(ws: seq<AXWindow>, title: string, bounds: Bounds, k: nat)
    requires k < |ws| && MatchesWindow(ws[k], title, bounds)
    requires forall j | 0 <= j < k :: !MatchesWindow(ws[j], title, bounds)
    ensures JoinFlags(true, Some(ws), title, bounds) == FlagsOf(ws[k])
  {
    var p := MatcherFor(title, bounds);
    assert p(ws[k]);
    forall j | 0 <= j < k ensures !p(ws[j]) {
      assert !MatchesWindow(ws[j], title, bounds);
    }
    FirstIndexUnique(ws, p, k);
  }

  /** With permission but no matching accessibility window, both flags are false. */
  lemma JoinFlagsNoMatch(ws: seq<AXWindow>, title: string, bounds: Bounds)
    requires forall k | 0 <= k < |ws| :: !MatchesWindow(ws[k], title, bounds)
    ensures JoinFlags(true, Some(ws), title, bounds) == WindowFlags(false, false)
  {
    var p := MatcherFor(title, bounds);
    forall k | 0 <= k < |ws| ensures !p(ws[k]) {
      assert !MatchesWindow(ws[k], title, bounds);
    }
  }

  /** A non-empty bundle filter keeps only that application's windows. */
  predicate BundleFilterAccepts(filter: Option<string>, bundleId: string) {
    filter.None? || filter.value == "" || filter.value == bundleId
  }

  /** The window one listing entry contributes, if it survives the filters:
      layer 0, a process that resolves to an application with a bundle
      identifier and a name, the bundle filter, and readable bounds. */
  function ListedWindow(d: Desktop, space: FrameSpace, filter: Option<string>, e: CGEntry): (r: Option<WindowInfo>)
    ensures r.Some? <==>
      && e.layer == Some(0)
      && e.ownerPid.Some?
      && AppWithPid(d.apps, e.ownerPid.value).Some?
      && AppWithPid(d.apps, e.ownerPid.value).value.bundleIdentifier.Some?
      && AppWithPid(d.apps, e.ownerPid.value).value.localizedName.Some?
      && BundleFilterAccepts(filter, AppWithPid(d.apps, e.ownerPid.value).value.bundleIdentifier.value)
      && e.bounds.Some?
    ensures r.Some? ==>
      && r.value.title == e.name.GetOr("")
      && r.value.x == e.bounds.value.x && r.value.y == e.bounds.value.y
      && r.value.width == e.bounds.value.width && r.value.height == e.bounds.value.height
      && BundleFilterAccepts(filter, r.value.ownerBundleId)
      && (!d.trusted ==> !r.value.isMinimized && !r.value.isFullscreen)
    ensures r.Some? ==>
      var app, b := AppWithPid(d.apps, e.ownerPid.value).value, e.bounds.value;
      && r.value.ownerBundleId == app.bundleIdentifier.value
      && r.value.ownerName == app.localizedName.value
      && WindowFlags(r.value.isMinimized, r.value.isFullscreen) == JoinFlags(d.trusted, app.axWindows, r.value.title, b)
      && r.value.displayName == DetermineDisplay(d.screens, space, b.x, b.y, b.width, b.height)
  {
    if e.layer != Some(0) || e.ownerPid.None? then None
    else
      match AppWithPid(d.apps, e.ownerPid.value)
      case None => None
      case Some(app) =>
        if app.bundleIdentifier.None? || app.localizedName.None? then None
        else if !BundleFilterAccepts(filter, app.bundleIdentifier.value) then None
        else if e.bounds.None? then None
        else
          var b := e.bounds.value;
          var title := e.name.GetOr("");
          var flags := JoinFlags(d.trusted, app.axWindows, title, b);
          Some(WindowInfo(
            title, b.x, b.y, b.width, b.height,
            flags.isMinimized, flags.isFullscreen,
            DetermineDisplay(d.screens, space, b.x, b.y, b.width, b.height),
            app.bundleIdentifier.value, app.localizedName.value))
  }

  /** What one entry adds to the listing: its window, or nothing. */
  function ListedPart(d: Desktop, space: FrameSpace, filter: Option<string>, e: CGEntry): seq<WindowInfo> {
    match ListedWindow(d, space, filter, e) case Some(w) => [w] case None => []
  }

  /** The listing loop over the entries, keeping input order. */
  function CollectWindows(d: Desktop, space: FrameSpace, filter: Option<string>, entries: seq<CGEntry>): (r: seq<WindowInfo>)
    ensures |r| <= |entries|
    ensures forall k | 0 <= k < |r| :: BundleFilterAccepts(filter, r[k].ownerBundleId)
    ensures !d.trusted ==> forall k | 0 <= k < |r| :: !r[k].isMinimized && !r[k].isFullscreen
    ensures forall k | 0 <= k < |r| :: exists m | 0 <= m < |entries| :: ListedWindow(d, space, filter, entries[m]) == Some(r[k])
  {
    if |entries| == 0 then []
    else
      var head := ListedPart(d, space, filter, entries[0]);
      var rest := CollectWindows(d, space, filter, entries[1..]);
      assert forall k | 0 <= k < |rest| :: exists m | 0 <= m < |entries| :: ListedWindow(d, space, filter, entries[m]) == Some(rest[k]) by {
        forall k | 0 <= k < |rest|
          ensures exists m | 0 <= m < |entries| :: ListedWindow(d, space, filter, entries[m]) == Some(rest[k])
        {
          var m :| 0 <= m < |entries[1..]| && ListedWindow(d, space, filter, entries[1..][m]) == Some(rest[k]);
          assert entries[1..][m] == entries[m + 1];
        }
      }
      head + rest
  }

  /** Listing a concatenation lists each part in turn: the output keeps the
      window server's order. */
  lemma {:induction false} CollectWindowsAppend(d: Desktop, space: FrameSpace, filter: Option<string>, a: seq<CGEntry>, b: seq<CGEntry>)
    ensures CollectWindows(d, space, filter, a + b) == CollectWindows(d, space, filter, a) + CollectWindows(d, space, filter, b)
    decreases |a|
  {
    if |a| == 0 {
      assert a + b == b;
    } else {
      var ab := a + b;
      assert ab[1..] == a[1..] + b;
      assert ab[0] == a[0];
      CollectWindowsAppend(d, space, filter, a[1..], b);
      calc {
        CollectWindows(d, space, filter, ab);
        ListedPart(d, space, filter, a[0]) + CollectWindows(d, space, filter, a[1..] + b);
        ListedPart(d, space, filter, a[0]) + (CollectWindows(d, space, filter, a[1..]) + CollectWindows(d, space, filter, b));
        (ListedPart(d, space, filter, a[0]) + CollectWindows(d, space, filter, a[1..])) + CollectWindows(d, space, filter, b);
      }
    }
  }

  /** An entry that passes every filter is listed, and one that fails any is dropped. */
  lemma CollectSingleEntry(d: Desktop, space: FrameSpace, filter: Option<string>, e: CGEntry)
    ensures ListedWindow(d, space, filter, e).Some? ==> CollectWindows(d, space, filter, [e]) == [ListedWindow(d, space, filter, e).value]
    ensures ListedWindow(d, space, filter, e).None? ==> CollectWindows(d, space, filter, [e]) == []
  {
    assert [e][1..] == [];
  }

  /** `listWindows` / `getWindowsUsingCGWindowList`: empty when the listing
      call fails. */
  function ListWindows(d: Desktop, space: FrameSpace, filter: Option<string>): (r: seq<WindowInfo>)
    ensures d.windowList.None? ==> r == []
    ensures d.windowList.Some? ==> r == CollectWindows(d, space, filter, d.windowList.value)
    ensures forall k | 0 <= k < |r| :: BundleFilterAccepts(filter, r[k].ownerBundleId)
    ensures d.windowList.Some? ==> |r| <= |d.windowList.value|
  {
    match d.windowList
    case None => []
    case Some(entries) => CollectWindows(d, space, filter, entries)
  }

  // ---------------------------------------------------------------------
  // Target window

  /** The title an accessibility window reports, "" when unreadable. */
  function TitleOf(ax: AXWindow): string {
    ax.title.GetOr("")
  }

  /** `findTargetWindow`'s test for one window: no filter, or the window's
      title contains the filter (Swift's `String.contains`). */
  predicate SelectsWindow(title: Option<string>, ax: AXWindow) {
    title.None? || ContainsInfix(TitleOf(ax), title.value)
  }

  /** Reference form of the same test, stated with `IsInfix`. */
  predicate TitleFilterAdmits(title: Option<string>, ax: AXWindow) {
    title.None? || IsInfix(title.value, TitleOf(ax))
  }

  lemma SelectsWindowIsFilter(title: Option<string>, ax: AXWindow)
    ensures SelectsWindow(title, ax) <==> TitleFilterAdmits(title, ax)
  {
    if title.Some? {
      ContainsInfixIsInfix(TitleOf(ax), title.value);
    }
  }

  /** `buildWindowInfo`: the handle's own attributes, unreadable ones as
      "", zero or false, attributed to a display by its centre. */
  function BuildWindowInfo(screens: seq<Screen>, space: FrameSpace, ax: AXWindow, bundleId: string, appName: string)
    : (w: WindowInfo)
    ensures w.title == TitleOf(ax) && w.ownerBundleId == bundleId && w.ownerName == appName
    ensures w.isMinimized == ax.minimized.GetOr(false) && w.isFullscreen == ax.fullscreen.GetOr(false)
    ensures ax.position.Some? ==> w.x == ax.position.value.x && w.y == ax.position.value.y
    ensures ax.position.None? ==> w.x == 0.0 && w.y == 0.0
    ensures ax.size.Some? ==> w.width == ax.size.value.width && w.height == ax.size.value.height
    ensures ax.size.None? ==> w.width == 0.0 && w.height == 0.0
    ensures w.displayName == DetermineDisplay(screens, space, w.x, w.y, w.width, w.height)
  {
    var position := ax.position.GetOr(Point(0.0, 0.0));
    var size := ax.size.GetOr(Size(0.0, 0.0));
    WindowInfo(
      TitleOf(ax), position.x, position.y, size.width, size.height,
      ax.minimized.GetOr(false), ax.fullscreen.GetOr(false),
      DetermineDisplay(screens, space, position.x, position.y, size.width, size.height),
      bundleId, appName)
  }

  /** The window a request resolved to: its application, its accessibility
      element and the snapshot read from that element. */
  datatype Target = Target(app: RunningApp, window: AXWindow, info: WindowInfo)

  /** `findTargetWindow`: the first running application with the bundle ID,
      then its first window whose title contains the filter (the first
      window outright when there is no filter). */
  function FindTargetWindow(d: Desktop, space: FrameSpace, bundleId: string, title: Option<string>): (r: Result<Target, WorkspaceError>)
    ensures r.Err? ==> r.error == WindowNotFound(bundleId, title)
    ensures r.Ok? <==>
      && RunningAppFor(d.apps, bundleId).Some?
      && RunningAppFor(d.apps, bundleId).value.axWindows.Some?
      && exists k | 0 <= k < |RunningAppFor(d.apps, bundleId).value.axWindows.value| ::
           TitleFilterAdmits(title, RunningAppFor(d.apps, bundleId).value.axWindows.value[k])
    ensures r.Ok? ==>
      && r.value.app == RunningAppFor(d.apps, bundleId).value
      && r.value.app.bundleIdentifier == Some(bundleId)
      && r.value.info == BuildWindowInfo(d.screens, space, r.value.window, bundleId, r.value.app.localizedName.GetOr("Unknown"))
      && TitleFilterAdmits(title, r.value.window)
    ensures r.Ok? ==>
      var ws := r.value.app.axWindows.value;
      exists k | 0 <= k < |ws| :: ws[k] == r.value.window && forall j | 0 <= j < k :: !TitleFilterAdmits(title, ws[j])
    ensures r.Ok? && title.None? ==> r.value.window == r.value.app.axWindows.value[0]
  {
    match RunningAppFor(d.apps, bundleId)
    case None => Err(WindowNotFound(bundleId, title))
    case Some(app) =>
      if app.axWindows.None? || |app.axWindows.value| == 0 then Err(WindowNotFound(bundleId, title))
      else
        var ws := app.axWindows.value;
        assert forall k | 0 <= k < |ws| :: SelectsWindow(title, ws[k]) == TitleFilterAdmits(title, ws[k]) by {
          forall k | 0 <= k < |ws| ensures SelectsWindow(title, ws[k]) == TitleFilterAdmits(title, ws[k]) {
            SelectsWindowIsFilter(title, ws[k]);
          }
        }
        match FirstIndex(ws, (w: AXWindow) => SelectsWindow(title, w))
        case None => Err(WindowNotFound(bundleId, title))
        case Some(k) =>
          Ok(Target(app, ws[k], BuildWindowInfo(d.screens, space, ws[k], bundleId, app.localizedName.GetOr("Unknown"))))
  }

  // ---------------------------------------------------------------------
  // Target display and coordinates

  /** `determineTargetScreen`, as an index into `screens`: the first screen
      with exactly the requested name, or else the first whose frame contains
      the window's centre, else the main screen, else the first screen; the
      force-unwrap of that last fallback traps when there are no screens. */
  function DetermineTargetScreen(
    screens: seq<Screen>, mainScreen: Option<nat>, space: FrameSpace, displayName: Option<string>, w: WindowInfo)
    : (r: Outcome<nat, WorkspaceError>)
    requires ValidMainScreen(screens, mainScreen)
    ensures r.Returned? ==> r.value < |screens|
    ensures displayName.Some? ==>
      && !r.Trapped?
      && (r.Threw? <==> forall k | 0 <= k < |screens| :: screens[k].localizedName != displayName.value)
      && (r.Threw? ==> r.error == DisplayNotFound(displayName.value))
      && (r.Returned? ==>
            (screens[r.value].localizedName == displayName.value
             && forall j | 0 <= j < r.value :: screens[j].localizedName != displayName.value))
    ensures displayName.None? ==>
      var cx, cy := w.x + w.width / 2.0, w.y + w.height / 2.0;
      && !r.Threw?
      && (r.Trapped? <==> |screens| == 0)
      && ((exists k | 0 <= k < |screens| :: ScreenContains(screens, space, screens[k], cx, cy)) ==>
            r.Returned? && ScreenContains(screens, space, screens[r.value], cx, cy)
            && forall j | 0 <= j < r.value :: !ScreenContains(screens, space, screens[j], cx, cy))
      && ((forall k | 0 <= k < |screens| :: !ScreenContains(screens, space, screens[k], cx, cy)) && |screens| > 0 ==>
            r == Returned(mainScreen.GetOr(0)))
  {
    match displayName
    case Some(targetName) =>
      (match FirstIndex(screens, (s: Screen) => s.localizedName == targetName)
       case Some(k) => Returned(k)
       case None => Threw(DisplayNotFound(targetName)))
    case None =>
      var cx, cy := w.x + w.width / 2.0, w.y + w.height / 2.0;
      match FirstIndex(screens, (s: Screen) => ScreenContains(screens, space, s, cx, cy))
      case Some(k) => Returned(k)
      case None =>
        if mainScreen.Some? then Returned(mainScreen.value)
        else if |screens| > 0 then Returned(0)
        else Trapped
  }

  /** An explicit display name wins even when the window's centre lies on another screen. */
  lemma ExplicitDisplayNameWins(
    screens: seq<Screen>, mainScreen: Option<nat>, space: FrameSpace, name: string, w: WindowInfo, i: nat, j: nat)
    requires ValidMainScreen(screens, mainScreen)
    requires i < |screens| && j < |screens|
    requires screens[i].localizedName == name
    requires forall k | 0 <= k < i :: screens[k].localizedName != name
    requires ScreenContains(screens, space, screens[j], w.x + w.width / 2.0, w.y + w.height / 2.0) && j != i
    ensures DetermineTargetScreen(screens, mainScreen, space, Some(name), w) == Returned(i)
  {
  }

  /** Two screens of the same size, the second directly above the primary
      in display space. */
  predicate StackedAbove(screens: seq<Screen>) {
    && |screens| == 2
    && screens[0].frame.x == 0 && screens[0].frame.y == 0
    && screens[0].frame.width > 0 && screens[0].frame.height > 0
    && screens[1].frame == Rect(0, screens[0].frame.height, screens[0].frame.width, screens[0].frame.height)
  }

  /** The window's centre is over the upper screen: within the screens'
      columns and above the primary's top edge, in window space. */
  predicate OverUpperScreen(screens: seq<Screen>, w: WindowInfo)
    requires StackedAbove(screens)
  {
    var cx, cy := w.x + w.width / 2.0, w.y + w.height / 2.0;
    && 0.0 <= cx < screens[0].frame.width as real
    && -(screens[0].frame.height as real) <= cy < 0.0
  }

  /** With the frames taken in display space, as the source does, a window
      over the upper screen lies on no display: it is listed as "Unknown"
      and placed on the main screen. */
  lemma StackedScreensAsWritten(screens: seq<Screen>, mainScreen: Option<nat>, w: WindowInfo)
    requires ValidMainScreen(screens, mainScreen) && StackedAbove(screens) && OverUpperScreen(screens, w)
    ensures DetermineDisplay(screens, DisplaySpace, w.x, w.y, w.width, w.height) == "Unknown"
    ensures DetermineTargetScreen(screens, mainScreen, DisplaySpace, None, w) == Returned(mainScreen.GetOr(0))
  {
    var cx, cy := w.x + w.width / 2.0, w.y + w.height / 2.0;
    assert !ScreenContains(screens, DisplaySpace, screens[0], cx, cy);
    assert !ScreenContains(screens, DisplaySpace, screens[1], cx, cy);
  }

  /** With the frames flipped into window space, the same window is on the
      upper screen. */
  lemma StackedScreensCorrected(screens: seq<Screen>, mainScreen: Option<nat>, w: WindowInfo)
    requires ValidMainScreen(screens, mainScreen) && StackedAbove(screens) && OverUpperScreen(screens, w)
    ensures DetermineDisplay(screens, WindowSpace, w.x, w.y, w.width, w.height) == screens[1].localizedName
    ensures DetermineTargetScreen(screens, mainScreen, WindowSpace, None, w) == Returned(1)
  {
    var cx, cy := w.x + w.width / 2.0, w.y + w.height / 2.0;
    var h := screens[0].frame.height;
    assert FrameIn(screens, WindowSpace, screens[0]) == Rect(0, 0, screens[0].frame.width, h);
    assert FrameIn(screens, WindowSpace, screens[1]) == Rect(0, -h, screens[0].frame.width, h);
    assert !ScreenContains(screens, WindowSpace, screens[0], cx, cy);
    assert ScreenContains(screens, WindowSpace, screens[1], cx, cy);
  }

  /** On a single screen the two spaces cover the same points: a one-screen
      desktop never shows the discrepancy. */
  lemma SingleScreenSpacesAgree(s: Screen, px: real, py: real)
    requires s.frame.x == 0 && s.frame.y == 0
    ensures ScreenContains([s], DisplaySpace, s, px, py) <==> ScreenContains([s], WindowSpace, s, px, py)
  {
  }

  // ---------------------------------------------------------------------
  // Accessibility writes

  /** A value written to an accessibility attribute: a boolean, or an
      `AXValue` of point type (its bytes are not modelled). */
  datatype AttributeValue = BooleanValue(flag: bool) | PointValue

  /** An accessibility call issued by the engine. */
  datatype AXCall =
    | SetSize(width: int, height: int)
    | SetPosition(x: int, y: int)
    | SetMinimized(value: AttributeValue)
    | ActivateApp(pid: int)
    | PerformRaise

  /** `isAcceptableResult` of `setWindowFrame`: success, action unsupported,
      or the raw value -25200. */
  predicate IsAcceptableResult(r: AXResult) {
    r == Success || r == ActionUnsupported || r.rawValue == -25200
  }

  /** What the platform answers to the first size write, the position write
      and the final size write, should each be issued. */
  datatype WriteResponses = WriteResponses(firstSize: AXResult, position: AXResult, finalSize: AXResult)

  /** The answer to the k-th write of the protocol. */
  function ResponseAt(resp: WriteResponses, k: nat): AXResult {
    if k == 0 then resp.firstSize else if k == 1 then resp.position else resp.finalSize
  }

  /** The full protocol for a frame: size, then position, then size again. */
  function FrameProtocol(frame: Rect): seq<AXCall> {
    [SetSize(frame.width, frame.height), SetPosition(frame.x, frame.y), SetSize(frame.width, frame.height)]
  }

  /** The writes issued and the error thrown, if any. */
  datatype FrameWrite = FrameWrite(writes: seq<AXCall>, error: Option<WorkspaceError>)

  /** The reason text of a rejected write, quoting the raw error value. */
  function FailureReason(what: string, r: AXResult): (reason: string)
    ensures IsInfix(IntToDecimal(r.rawValue), reason)
  {
    InfixMiddle("Failed to set " + what + " (error: ", IntToDecimal(r.rawValue), ")");
    "Failed to set " + what + " (error: " + IntToDecimal(r.rawValue) + ")"
  }

  /** `setWindowFrame`: writes are issued in protocol order, each only after
      every earlier one was accepted; the final size write is issued only
      when the first answered exactly success; the first rejected write
      throws `positioningFailed` naming its raw error value. */
  function SetWindowFrame(frame: Rect, resp: WriteResponses): (w: FrameWrite)
    ensures 1 <= |w.writes| <= 3 && w.writes == FrameProtocol(frame)[..|w.writes|]
    ensures forall k | 0 <= k < |w.writes| - 1 :: IsAcceptableResult(ResponseAt(resp, k))
    ensures w.error.Some? <==> !IsAcceptableResult(ResponseAt(resp, |w.writes| - 1))
    ensures w.error.Some? ==>
      (w.error.value.PositioningFailed?
       && IsInfix(IntToDecimal(ResponseAt(resp, |w.writes| - 1).rawValue), w.error.value.reason))
    ensures |w.writes| == 3 ==> resp.firstSize == Success
    ensures w.error.None? ==> |w.writes| == (if resp.firstSize == Success then 3 else 2)
  {
    var size := SetSize(frame.width, frame.height);
    var position := SetPosition(frame.x, frame.y);
    if !IsAcceptableResult(resp.firstSize) then
      FrameWrite([size], Some(PositioningFailed(FailureReason("size", resp.firstSize))))
    else if !IsAcceptableResult(resp.position) then
      FrameWrite([size, position], Some(PositioningFailed(FailureReason("position", resp.position))))
    else if resp.firstSize != Success then
      FrameWrite([size, position], None)
    else if !IsAcceptableResult(resp.finalSize) then
      FrameWrite([size, position, size], Some(PositioningFailed(FailureReason("final size", resp.finalSize))))
    else
      FrameWrite([size, position, size], None)
  }

  /** The calls and the error of `raiseWindow`. */
  datatype CallRun = CallRun(calls: seq<AXCall>, error: Option<WorkspaceError>)

  /** `raiseWindow`: activates the application and performs the raise
      action; only a missing application is an error. */
  function RaiseWindow(apps: seq<RunningApp>, bundleId: string, raiseResult: AXResult): (r: CallRun)
    ensures r.error.Some? <==> RunningAppFor(apps, bundleId).None?
    ensures r.error.Some? ==> r.error.value == ApplicationNotFound(bundleId) && r.calls == []
    ensures r.error.None? ==> r.calls == [ActivateApp(RunningAppFor(apps, bundleId).value.pid), PerformRaise]
  {
    match RunningAppFor(apps, bundleId)
    case None => CallRun([], Some(ApplicationNotFound(bundleId)))
    case Some(app) => CallRun([ActivateApp(app.pid), PerformRaise], None)
  }

  /** The raise action's own result never changes what `raiseWindow` does. */
  lemma RaiseIgnoresResult(apps: seq<RunningApp>, bundleId: string, a: AXResult, b: AXResult)
    ensures RaiseWindow(apps, bundleId, a) == RaiseWindow(apps, bundleId, b)
  {
  }

  // ---------------------------------------------------------------------
  // Placement and focus

  /** The calls an operation issued and how it ended. */
  datatype Run<T> = Run(calls: seq<AXCall>, outcome: Outcome<T, WorkspaceError>)

  /** `getUpdatedWindowInfo`: the snapshot re-read from the handle after the
      mutations, with the application's name looked up again by process id. */
  function UpdatedWindowInfo(d: Desktop, space: FrameSpace, app: RunningApp, bundleId: string, reread: AXWindow)
    : (w: WindowInfo)
    ensures w.title == TitleOf(reread) && w.ownerBundleId == bundleId
    ensures w.isMinimized == reread.minimized.GetOr(false) && w.isFullscreen == reread.fullscreen.GetOr(false)
    ensures (forall k | 0 <= k < |d.apps| :: d.apps[k].pid != app.pid) ==> w.ownerName == "Unknown"
    ensures forall k | 0 <= k < |d.apps| && d.apps[k].pid == app.pid && (forall j | 0 <= j < k :: d.apps[j].pid != app.pid) ::
      w.ownerName == d.apps[k].localizedName.GetOr("Unknown")
    ensures w == BuildWindowInfo(d.screens, space, reread, bundleId, w.ownerName)
  {
    var name := match AppWithPid(d.apps, app.pid) case Some(a) => a.localizedName case None => None;
    BuildWindowInfo(d.screens, space, reread, bundleId, name.GetOr("Unknown"))
  }

  /** The visible frame of `screens[i]` converted to window space. */
  function WindowSpaceVisibleFrame(screens: seq<Screen>, i: nat): Rect
    requires i < |screens|
  {
    ConvertToScreenCoordinates(screens, screens[i].visibleFrame)
  }

  /** `positionWindow`: permission, target window, minimized check, target
      display, frame computation, the write protocol, raise, re-read. */
  function PositionWindow(
    d: Desktop, space: FrameSpace, bundleId: string, title: Option<string>, preset: WindowPreset, displayName: Option<string>,
    resp: WriteResponses, raiseResult: AXResult, reread: AXWindow): (r: Run<PositionResult>)
    requires ValidMainScreen(d.screens, d.mainScreen)
    ensures !d.trusted ==> r == Run([], Threw(PermissionDenied))
    ensures d.trusted && FindTargetWindow(d, space, bundleId, title).Err? ==>
      r == Run([], Threw(WindowNotFound(bundleId, title)))
    ensures (d.trusted && FindTargetWindow(d, space, bundleId, title).Ok?
             && FindTargetWindow(d, space, bundleId, title).value.info.isMinimized) ==>
      r == Run([], Threw(WindowMinimized(bundleId, title)))
    ensures r.outcome.Threw? && r.outcome.error.DisplayNotFound? ==>
      r.calls == [] && displayName == Some(r.outcome.error.displayName)
    ensures r.outcome.Threw? ==> !r.outcome.error.ApplicationNotFound?
    ensures r.outcome.Trapped? ==> r.calls == [] && displayName.None? && |d.screens| == 0
    ensures (d.trusted && FindTargetWindow(d, space, bundleId, title).Ok?
             && !FindTargetWindow(d, space, bundleId, title).value.info.isMinimized
             && displayName.None? && |d.screens| == 0) ==>
      r == Run([], Trapped)
    ensures r.outcome.Returned? ==>
      && r.outcome.value.appliedPreset == preset
      && (exists i | 0 <= i < |d.screens| :: d.screens[i].localizedName == r.outcome.value.displayName)
      && (displayName.Some? ==> r.outcome.value.displayName == displayName.value)
      && r.outcome.value.window.title == TitleOf(reread)
      && r.outcome.value.window.isMinimized == reread.minimized.GetOr(false)
      && r.outcome.value.window.ownerBundleId == bundleId
      && r.outcome.value.window
         == UpdatedWindowInfo(d, space, FindTargetWindow(d, space, bundleId, title).value.app, bundleId, reread)
      && |r.calls| >= 4 && r.calls[|r.calls| - 1] == PerformRaise
    ensures r.calls != [] ==>
      && d.trusted
      && FindTargetWindow(d, space, bundleId, title).Ok?
      && !FindTargetWindow(d, space, bundleId, title).value.info.isMinimized
      && r.calls[0].SetSize?
  {
    if !d.trusted then Run([], Threw(PermissionDenied))
    else
      match FindTargetWindow(d, space, bundleId, title)
      case Err(e) => Run([], Threw(e))
      case Ok(target) =>
        if target.info.isMinimized then Run([], Threw(WindowMinimized(bundleId, title)))
        else
          match DetermineTargetScreen(d.screens, d.mainScreen, space, displayName, target.info)
          case Threw(e) => Run([], Threw(e))
          case Trapped => Run([], Trapped)
          case Returned(i) =>
            var frame := PositionCalculator.CalculateFrame(preset, WindowSpaceVisibleFrame(d.screens, i));
            var written := SetWindowFrame(frame, resp);
            if written.error.Some? then Run(written.writes, Threw(written.error.value))
            else
              // The application was just found, so the raise cannot fail.
              var raised := RaiseWindow(d.apps, bundleId, raiseResult);
              assert raised.error.None?;
              Run(written.writes + raised.calls,
                  Returned(PositionResult(
                    UpdatedWindowInfo(d, space, target.app, bundleId, reread), preset, d.screens[i].localizedName)))
  }

  /** Once permission is granted and a non-minimized target found, placement
      follows the chosen screen: a display name nobody has is
      `displayNotFound` and nothing else is; with no screen chosen no call is
      issued; otherwise the preset's frame, computed in that screen's visible
      frame in window space, is written with the frame protocol; a rejected
      write ends the run with its error before any activation or raise, and
      an accepted one is followed by activate and raise and reports that
      screen's name. */
  lemma PlacementWritesPresetFrame(
    d: Desktop, space: FrameSpace, bundleId: string, title: Option<string>, preset: WindowPreset,
    displayName: Option<string>, resp: WriteResponses, raiseResult: AXResult, reread: AXWindow)
    requires ValidMainScreen(d.screens, d.mainScreen)
    ensures var r := PositionWindow(d, space, bundleId, title, preset, displayName, resp, raiseResult, reread);
      (d.trusted && FindTargetWindow(d, space, bundleId, title).Ok?
       && !FindTargetWindow(d, space, bundleId, title).value.info.isMinimized) ==>
        var target := FindTargetWindow(d, space, bundleId, title).value;
        var screen := DetermineTargetScreen(d.screens, d.mainScreen, space, displayName, target.info);
        && (r.outcome.Threw? && r.outcome.error.DisplayNotFound?
            <==> displayName.Some? && forall k | 0 <= k < |d.screens| :: d.screens[k].localizedName != displayName.value)
        && (!screen.Returned? ==> r.calls == [])
        && (screen.Trapped? ==> r == Run([], Trapped))
        && (screen.Returned? ==>
              var frame := PositionCalculator.CalculateFrame(preset, WindowSpaceVisibleFrame(d.screens, screen.value));
              var written := SetWindowFrame(frame, resp);
              && (written.error.Some? ==> r == Run(written.writes, Threw(written.error.value)))
              && (written.error.None? ==>
                    && r.calls == written.writes + [ActivateApp(target.app.pid), PerformRaise]
                    && r.outcome.Returned?
                    && r.outcome.value.window == UpdatedWindowInfo(d, space, target.app, bundleId, reread)
                    && r.outcome.value.displayName == d.screens[screen.value].localizedName))
  {
  }

  /** A successful placement wrote a frame that lies inside the chosen
      screen's visible frame in window space (when that frame has a
      non-negative size), and that screen carries the reported name. */
  lemma PlacementStaysInVisibleFrame(
    d: Desktop, space: FrameSpace, bundleId: string, title: Option<string>, preset: WindowPreset, displayName: Option<string>,
    resp: WriteResponses, raiseResult: AXResult, reread: AXWindow)
    requires ValidMainScreen(d.screens, d.mainScreen)
    requires forall i | 0 <= i < |d.screens| :: d.screens[i].visibleFrame.width >= 0 && d.screens[i].visibleFrame.height >= 0
    ensures var r := PositionWindow(d, space, bundleId, title, preset, displayName, resp, raiseResult, reread);
      r.outcome.Returned? ==>
        && r.calls[0].SetSize? && r.calls[1].SetPosition?
        && exists i | 0 <= i < |d.screens| ::
             && d.screens[i].localizedName == r.outcome.value.displayName
             && Inside(Rect(r.calls[1].x, r.calls[1].y, r.calls[0].width, r.calls[0].height),
                       WindowSpaceVisibleFrame(d.screens, i))
  {
    var r := PositionWindow(d, space, bundleId, title, preset, displayName, resp, raiseResult, reread);
    if r.outcome.Returned? {
      var target := FindTargetWindow(d, space, bundleId, title).value;
      var i := DetermineTargetScreen(d.screens, d.mainScreen, space, displayName, target.info).value;
      var frame := PositionCalculator.CalculateFrame(preset, WindowSpaceVisibleFrame(d.screens, i));
      var written := SetWindowFrame(frame, resp);
      PlacementWritesPresetFrame(d, space, bundleId, title, preset, displayName, resp, raiseResult, reread);
      assert r.calls[..|written.writes|] == written.writes;
      assert written.writes[0] == SetSize(frame.width, frame.height);
      assert written.writes[1] == SetPosition(frame.x, frame.y);
    }
  }

  /** The result codes `focusWindow` accepts when clearing the minimized flag. */
  predicate IsAcceptableUnminimizeResult(r: AXResult) {
    r == Success || r == ActionUnsupported
  }

  /** As written, a window over the upper of two stacked screens is placed,
      when no display is named, on the main screen: the preset's frame is
      computed in the main screen's visible frame and reported with its name. */
  lemma StackedPlacementAsWritten(
    d: Desktop, bundleId: string, title: Option<string>, preset: WindowPreset,
    resp: WriteResponses, raiseResult: AXResult, reread: AXWindow)
    requires ValidMainScreen(d.screens, d.mainScreen) && StackedAbove(d.screens)
    requires d.trusted && FindTargetWindow(d, DisplaySpace, bundleId, title).Ok?
    requires !FindTargetWindow(d, DisplaySpace, bundleId, title).value.info.isMinimized
    requires OverUpperScreen(d.screens, FindTargetWindow(d, DisplaySpace, bundleId, title).value.info)
    ensures var r := PositionWindow(d, DisplaySpace, bundleId, title, preset, None, resp, raiseResult, reread);
      var main := d.mainScreen.GetOr(0);
      var f := PositionCalculator.CalculateFrame(preset, WindowSpaceVisibleFrame(d.screens, main));
      && r.calls[0] == SetSize(f.width, f.height)
      && (r.outcome.Returned? ==> r.outcome.value.displayName == d.screens[main].localizedName)
  {
    StackedScreensAsWritten(d.screens, d.mainScreen, FindTargetWindow(d, DisplaySpace, bundleId, title).value.info);
    PlacementWritesPresetFrame(d, DisplaySpace, bundleId, title, preset, None, resp, raiseResult, reread);
  }

  /** With the frames flipped into window space, the same window is placed
      on the upper screen. */
  lemma StackedPlacementCorrected(
    d: Desktop, bundleId: string, title: Option<string>, preset: WindowPreset,
    resp: WriteResponses, raiseResult: AXResult, reread: AXWindow)
    requires ValidMainScreen(d.screens, d.mainScreen) && StackedAbove(d.screens)
    requires d.trusted && FindTargetWindow(d, WindowSpace, bundleId, title).Ok?
    requires !FindTargetWindow(d, WindowSpace, bundleId, title).value.info.isMinimized
    requires OverUpperScreen(d.screens, FindTargetWindow(d, WindowSpace, bundleId, title).value.info)
    ensures var r := PositionWindow(d, WindowSpace, bundleId, title, preset, None, resp, raiseResult, reread);
      var f := PositionCalculator.CalculateFrame(preset, WindowSpaceVisibleFrame(d.screens, 1));
      && r.calls[0] == SetSize(f.width, f.height)
      && (r.outcome.Returned? ==> r.outcome.value.displayName == d.screens[1].localizedName)
  {
    StackedScreensCorrected(d.screens, d.mainScreen, FindTargetWindow(d, WindowSpace, bundleId, title).value.info);
    PlacementWritesPresetFrame(d, WindowSpace, bundleId, title, preset, None, resp, raiseResult, reread);
  }

  /** `focusWindow`, writing `unminimizeValue` to clear the minimized flag:
      permission, target window, the write when the window is minimized,
      raise, re-read. */
  function FocusWindowWriting(
    d: Desktop, space: FrameSpace, bundleId: string, title: Option<string>, unminimizeValue: AttributeValue,
    unminimizeResult: AXResult, raiseResult: AXResult, reread: AXWindow): (r: Run<FocusResult>)
    ensures !d.trusted ==> r == Run([], Threw(PermissionDenied))
    ensures d.trusted && FindTargetWindow(d, space, bundleId, title).Err? ==>
      r == Run([], Threw(WindowNotFound(bundleId, title)))
    ensures !r.outcome.Trapped?
    ensures d.trusted && FindTargetWindow(d, space, bundleId, title).Ok? ==>
      && r.calls != []
      && (r.calls[0] == SetMinimized(unminimizeValue) <==> FindTargetWindow(d, space, bundleId, title).value.info.isMinimized)
      && (r.outcome.Threw? <==>
            FindTargetWindow(d, space, bundleId, title).value.info.isMinimized
            && !IsAcceptableUnminimizeResult(unminimizeResult))
      && (r.outcome.Threw? ==> r.outcome.error.FocusFailed? && r.calls == [SetMinimized(unminimizeValue)])
    ensures r.outcome.Returned? ==>
      && r.calls[|r.calls| - 1] == PerformRaise
      && r.outcome.value.window.title == TitleOf(reread)
      && r.outcome.value.window.isMinimized == reread.minimized.GetOr(false)
      && r.outcome.value.window.ownerBundleId == bundleId
    ensures r.outcome.Threw? && r.outcome.error.FocusFailed? ==>
      IsInfix(IntToDecimal(unminimizeResult.rawValue), r.outcome.error.reason)
    ensures r.outcome.Returned? ==>
      var target := FindTargetWindow(d, space, bundleId, title).value;
      && r.calls == (if target.info.isMinimized then [SetMinimized(unminimizeValue)] else [])
                    + [ActivateApp(target.app.pid), PerformRaise]
      && r.outcome.value.window == UpdatedWindowInfo(d, space, target.app, bundleId, reread)
  {
    if !d.trusted then Run([], Threw(PermissionDenied))
    else
      match FindTargetWindow(d, space, bundleId, title)
      case Err(e) => Run([], Threw(e))
      case Ok(target) =>
        var unminimize := if target.info.isMinimized then [SetMinimized(unminimizeValue)] else [];
        if target.info.isMinimized && !IsAcceptableUnminimizeResult(unminimizeResult) then
          Run(unminimize, Threw(FocusFailed(UnminimizeFailureReason(unminimizeResult))))
        else
          // The application was just found, so the raise cannot fail.
          var raised := RaiseWindow(d.apps, bundleId, raiseResult);
          assert raised.error.None?;
          Run(unminimize + raised.calls, Returned(FocusResult(UpdatedWindowInfo(d, space, target.app, bundleId, reread))))
  }

  /** The reason text of a rejected unminimize write, quoting the raw error value. */
  function UnminimizeFailureReason(r: AXResult): (reason: string)
    ensures IsInfix(IntToDecimal(r.rawValue), reason)
  {
    InfixMiddle("Failed to unminimize window (error: ", IntToDecimal(r.rawValue), ")");
    "Failed to unminimize window (error: " + IntToDecimal(r.rawValue) + ")"
  }

  /** The value the source writes to clear the minimized flag: an `AXValue`
      of point type built over the boolean. */
  const UnminimizeValueAsWritten: AttributeValue := PointValue

  /** A minimized target, as written, gets a point-typed value written to
      its boolean minimized attribute. */
  lemma UnminimizeAsWritten(d: Desktop, space: FrameSpace, bundleId: string, title: Option<string>, result: AXResult, raiseResult: AXResult, reread: AXWindow)
    requires d.trusted && FindTargetWindow(d, space, bundleId, title).Ok?
    requires FindTargetWindow(d, space, bundleId, title).value.info.isMinimized
    ensures var r := FocusWindowWriting(d, space, bundleId, title, UnminimizeValueAsWritten, result, raiseResult, reread);
      r.calls[0].SetMinimized? && !r.calls[0].value.BooleanValue?
  {
  }

  /** The only value `focusWindow` writes to the minimized attribute is the
      one it is given. */
  lemma FocusWritesOnlyValue(
    d: Desktop, space: FrameSpace, bundleId: string, title: Option<string>, unminimizeValue: AttributeValue,
    unminimizeResult: AXResult, raiseResult: AXResult, reread: AXWindow)
    ensures var r := FocusWindowWriting(d, space, bundleId, title, unminimizeValue, unminimizeResult, raiseResult, reread);
      forall c | c in r.calls && c.SetMinimized? :: c.value == unminimizeValue
  {
    var r := FocusWindowWriting(d, space, bundleId, title, unminimizeValue, unminimizeResult, raiseResult, reread);
    if r.outcome.Returned? {
      var target := FindTargetWindow(d, space, bundleId, title).value;
      var unminimize := if target.info.isMinimized then [SetMinimized(unminimizeValue)] else [];
      var raise := [ActivateApp(target.app.pid), PerformRaise];
      assert r.calls == unminimize + raise;
    } else if d.trusted && FindTargetWindow(d, space, bundleId, title).Ok? && r.outcome.Threw? {
      assert r.calls == [SetMinimized(unminimizeValue)];
    } else {
      assert r.calls == [];
    }
  }

  /** `focusWindow` with the minimized flag cleared by writing boolean false. */
  function FocusWindow(
    d: Desktop, space: FrameSpace, bundleId: string, title: Option<string>,
    unminimizeResult: AXResult, raiseResult: AXResult, reread: AXWindow): (r: Run<FocusResult>)
    ensures (d.trusted && FindTargetWindow(d, space, bundleId, title).Ok?
             && FindTargetWindow(d, space, bundleId, title).value.info.isMinimized) ==>
      |r.calls| > 0 && r.calls[0] == SetMinimized(BooleanValue(false))
    ensures forall c | c in r.calls && c.SetMinimized? :: c.value == BooleanValue(false)
  {
    FocusWritesOnlyValue(d, space, bundleId, title, BooleanValue(false), unminimizeResult, raiseResult, reread);
    FocusWindowWriting(d, space, bundleId, title, BooleanValue(false), unminimizeResult, raiseResult, reread)
  }

  /** The raw value -25200 passes the placement accept-list but not the
      unminimize accept-list. */
  lemma AcceptListsDiffer()
    ensures IsAcceptableResult(AXResult(-25200))
    ensures !IsAcceptableUnminimizeResult(AXResult(-25200))
    ensures forall r: AXResult :: IsAcceptableUnminimizeResult(r) ==> IsAcceptableResult(r)
  {
  }
}

=== FILE: workspace_error.dfy ===
/** The errors of workspace operations and the user-facing text for each. */
module WorkspaceErrors {
  import opened Wrappers
  import opened Sequences

  datatype WorkspaceError =
    | ApplicationNotFound(bundleId: string)
    | ApplicationNotRunning(bundleId: string)
    | LaunchFailed(bundleId: string, reason: string)
    | PermissionDenied
    | InvalidParameter(name: string, reason: string)
    | WindowNotFound(bundleId: string, title: Option<string>)
    | WindowMinimized(bundleId: string, title: Option<string>)
    | PositioningFailed(reason: string)
    | DisplayNotFound(displayName: string)
    | FocusFailed(reason: string)

  /** Words the messages are built around ("not found", "minimized",
      "accessibility", "permission"). */
  const NotFoundWord: string := "見つかりません"
  const MinimizedWord: string := "最小化"
  const AccessibilityWord: string := "アクセシビリティ"
  const PermissionWord: string := "権限"

  /** The numbered steps of the permission message, one per line. */
  const PermissionSteps: string :=
    "以下の手順で権限を付与してください:\n"
    + "1. システム設定を開く\n"
    + "2. プライバシーとセキュリティ > アクセシビリティ を選択\n"
    + "3. このアプリケーションを追加して有効化する"

  /** `WorkspaceError.userMessage`. */
  function UserMessage(e: WorkspaceError): (m: string)
    ensures |m| > 10
  {
    match e
    case ApplicationNotFound(bundleId) =>
      "アプリケーション '" + bundleId + "' が" + NotFoundWord + "。bundle IDを確認してください。"
    case ApplicationNotRunning(bundleId) =>
      "アプリケーション '" + bundleId + "' は起動していません。"
    case LaunchFailed(bundleId, reason) =>
      "アプリケーション '" + bundleId + "' の起動に失敗しました: " + reason
    case PermissionDenied =>
      AccessibilityWord + PermissionWord + "が必要です。\n" + PermissionSteps
    case InvalidParameter(name, reason) =>
      "パラメーター '" + name + "' が不正です: " + reason
    case WindowNotFound(bundleId, title) =>
      (match title
       case Some(t) =>
         "ウィンドウ '" + t + "' が" + NotFoundWord + "（アプリケーション: " + bundleId
         + "）。ウィンドウタイトルを確認してください。"
       case None =>
         "アプリケーション '" + bundleId
         + "' のウィンドウが" + NotFoundWord
         + "。アプリケーションが起動していることを確認してください。")
    case WindowMinimized(bundleId, title) =>
      (match title
       case Some(t) =>
         "ウィンドウ '" + t + "' は" + MinimizedWord + "されています（アプリケーション: " + bundleId
         + "）。ウィンドウを復元してから操作してください。"
       case None =>
         "アプリケーション '" + bundleId
         + "' のウィンドウは" + MinimizedWord
         + "されています。ウィンドウを復元してから操作してください。")
    case PositioningFailed(reason) =>
      "ウィンドウの配置に失敗しました: " + reason
    case DisplayNotFound(displayName) =>
      "ディスプレイ '" + displayName + "' が" + NotFoundWord
      + "。接続されているディスプレイ名を確認してください。"
    case FocusFailed(reason) =>
      "ウィンドウの前面表示に失敗しました: " + reason
  }

  /** `x` occurs in the message built as `p + x + s`. */
  lemma Mentions(x: string, p: string, s: string, m: string)
    requires m == p + x + s
    ensures IsInfix(x, m)
  {
    InfixMiddle(p, x, s);
  }

  /** Whatever a message's head mentions, the whole message mentions. */
  lemma MentionedInHead(x: string, head: string, tail: string)
    requires IsInfix(x, head)
    ensures IsInfix(x, head + tail)
  {
    InfixWiden(x, [], head, tail);
    assert [] + head + tail == head + tail;
  }

  /** The application errors name their bundle ID, and the reason when they carry one. */
  lemma ApplicationMessagesMention(e: WorkspaceError)
    requires e.ApplicationNotFound? || e.ApplicationNotRunning? || e.LaunchFailed?
    ensures IsInfix(e.bundleId, UserMessage(e))
    ensures e.ApplicationNotFound? ==> IsInfix(NotFoundWord, UserMessage(e))
    ensures e.LaunchFailed? ==> IsInfix(e.reason, UserMessage(e))
  {
    var m := UserMessage(e);
    match e
    case ApplicationNotFound(b) =>
      Mentions(b, "アプリケーション '", "' が" + NotFoundWord + "。bundle IDを確認してください。", m);
      Mentions(NotFoundWord, "アプリケーション '" + b + "' が", "。bundle IDを確認してください。", m);
    case ApplicationNotRunning(b) =>
      Mentions(b, "アプリケーション '", "' は起動していません。", m);
    case LaunchFailed(b, reason) =>
      Mentions(b, "アプリケーション '", "' の起動に失敗しました: " + reason, m);
      Mentions(reason, "アプリケーション '" + b + "' の起動に失敗しました: ", "", m);
  }

  /** Both inserted pieces occur in a message built as `p1 + x1 + p2 + x2 + tail`. */
  lemma TwoMentions(p1: string, x1: string, p2: string, x2: string, tail: string, m: string)
    requires m == p1 + x1 + p2 + x2 + tail
    ensures IsInfix(x1, m) && IsInfix(x2, m)
  {
    InfixMiddle(p1, x1, p2 + x2 + tail);
    assert p1 + x1 + (p2 + x2 + tail) == m;
    InfixMiddle(p1 + x1 + p2, x2, tail);
  }

  /** All three inserted pieces occur in a message built as
      `p1 + x1 + p2 + x2 + p3 + x3 + tail`. */
  lemma ThreeMentions(p1: string, x1: string, p2: string, x2: string, p3: string, x3: string, tail: string, m: string)
    requires m == p1 + x1 + p2 + x2 + p3 + x3 + tail
    ensures IsInfix(x1, m) && IsInfix(x2, m) && IsInfix(x3, m)
  {
    TwoMentions(p1, x1, p2, x2, p3 + x3 + tail, m);
    InfixMiddle(p1 + x1 + p2 + x2 + p3, x3, tail);
  }

  /** The window errors name the bundle ID, and the title when one was given. */
  lemma WindowMessagesMention(e: WorkspaceError)
    requires e.WindowNotFound? || e.WindowMinimized?
    ensures IsInfix(e.bundleId, UserMessage(e))
    ensures e.title.Some? ==> IsInfix(e.title.value, UserMessage(e))
    ensures e.WindowNotFound? ==> IsInfix(NotFoundWord, UserMessage(e))
    ensures e.WindowMinimized? ==> IsInfix(MinimizedWord, UserMessage(e))
  {
    var m := UserMessage(e);
    match e
    case WindowNotFound(b, title) =>
      if title.Some? {
        ThreeMentions("ウィンドウ '", title.value, "' が", NotFoundWord, "（アプリケーション: ", b,
          "）。ウィンドウタイトルを確認してください。", m);
      } else {
        TwoMentions("アプリケーション '", b, "' のウィンドウが", NotFoundWord,
          "。アプリケーションが起動していることを確認してください。", m);
      }
    case WindowMinimized(b, title) =>
      if title.Some? {
        ThreeMentions("ウィンドウ '", title.value, "' は", MinimizedWord, "されています（アプリケーション: ", b,
          "）。ウィンドウを復元してから操作してください。", m);
      } else {
        TwoMentions("アプリケーション '", b, "' のウィンドウは", MinimizedWord,
          "されています。ウィンドウを復元してから操作してください。", m);
      }
  }

  /** Failure and parameter errors quote their reason, name or display. */
  lemma DetailMessagesMention(e: WorkspaceError)
    requires e.PositioningFailed? || e.FocusFailed? || e.InvalidParameter? || e.DisplayNotFound?
    ensures e.PositioningFailed? || e.FocusFailed? ==> IsInfix(e.reason, UserMessage(e))
    ensures e.InvalidParameter? ==> IsInfix(e.name, UserMessage(e)) && IsInfix(e.reason, UserMessage(e))
    ensures e.DisplayNotFound? ==> IsInfix(e.displayName, UserMessage(e))
    ensures e.DisplayNotFound? ==> IsInfix(NotFoundWord, UserMessage(e))
  {
    var m := UserMessage(e);
    match e
    case PositioningFailed(reason) =>
      Mentions(reason, "ウィンドウの配置に失敗しました: ", "", m);
    case FocusFailed(reason) =>
      Mentions(reason, "ウィンドウの前面表示に失敗しました: ", "", m);
    case InvalidParameter(name, reason) =>
      Mentions(name, "パラメーター '", "' が不正です: " + reason, m);
      Mentions(reason, "パラメーター '" + name + "' が不正です: ", "", m);
    case DisplayNotFound(d) =>
      var tail := "。接続されているディスプレイ名を確認してください。";
      Mentions(d, "ディスプレイ '", "' が" + NotFoundWord + tail, m);
      Mentions(NotFoundWord, "ディスプレイ '" + d + "' が", tail, m);
  }

  /** The permission message names the accessibility permission. */
  lemma PermissionMessageMentions()
    ensures IsInfix(AccessibilityWord, UserMessage(PermissionDenied))
    ensures IsInfix(PermissionWord, UserMessage(PermissionDenied))
  {
    var head := AccessibilityWord + PermissionWord;
    Mentions(AccessibilityWord, "", PermissionWord, head);
    Mentions(PermissionWord, AccessibilityWord, "", head);
    MentionedInHead(AccessibilityWord, head, "が必要です。\n");
    MentionedInHead(PermissionWord, head, "が必要です。\n");
    MentionedInHead(AccessibilityWord, head + "が必要です。\n", PermissionSteps);
    MentionedInHead(PermissionWord, head + "が必要です。\n", PermissionSteps);
  }
}

=== FILE: wrappers.dfy ===
/** Failure-carrying datatypes shared by every module of the model. */
module Wrappers {

  /** A value that may be absent: Swift's `T?`. */
  datatype Option<+T> = None | Some(value: T) {

    /** The wrapped value, or `default` when absent: Swift's `x ?? default`. */
    function GetOr(default: T): T {
      match this
      case Some(v) => v
      case None => default
    }
  }

  /** The result of a Swift function that can throw but never traps. */
  datatype Result<+T, +E> = Ok(value: T) | Err(error: E)

  /** The three ways a Swift call can end: it returns a value, it throws an
      error, or it traps (a force-unwrap of nil, a `fatalError`). */
  datatype Outcome<+T, +E> = Returned(value: T) | Threw(error: E) | Trapped
}
